=== FILE: README.md ===
# Loyalty-Connect store, handlers and two client pages in Dafny

This project models the restaurant loyalty back office Loyalty-Connect. It covers four parts:

- **The store** (`server/storage.ts`). The class `Storage.DatabaseStorage` holds one sequence of rows per table, in insertion order, with the serial counter of each table and a clock. Every insert, update and delete is a method that changes those sequences the way its SQL statement does. The reads (`get*`, `getFeedbackStats`, `getDashboardStats`) are functions in the modules `Queries` and `Stats`. The avatar expression of `createCustomer` is in `Avatar`. An update whose patch sets no column is refused, because the query builder throws on an empty SET; the PATCH handler then answers 500, for a stored id and an unknown one alike.
- **The points ledger.** A wallet's cached `balancePuntos` is moved by `createWalletTransaction` in two separate steps: an insert, then `updateWalletBalance`. The module `Ledger` states and proves the relation the store keeps: balance = opening balance + credits − debits of the rows posted since the wallet was opened.
- **The HTTP handlers** (`server/routes.ts`). Each handler is a function `Routes.*` from the parsed request and the outcome of the store call to a status code and body.
- **Two client pages.**
  - `Campaigns.tsx` has a wizard class `Campaigns.CampaignWizard`, plus pure filter and statistics functions.
  - `Wallets.tsx` is pure: the module `WalletsPage`.

`Rows` holds the generic shapes of the SQL the store issues:

- `UPDATE … WHERE` is `Update`.
- `DELETE` and `WHERE` are `Filter`.
- `ORDER BY … DESC` over serial columns is `Reverse`.
- `LIMIT` is `Take`.
- `const [row] = …` is `First`.
- `SUM` is `SumBy`.

`Schema` holds the rows. Money columns are integer cents and timestamps are ticks of a monotone clock.

## Model

| member | source | states |
|---|---|---|
| Rows.Filter | server/storage.ts:108-111 | DELETE … WHERE / SELECT … WHERE: a row is kept iff it is in the table and matches; never more rows |
| Rows.First | server/storage.ts:92-95 | `const [row] = select … where`: nothing iff no row matches; otherwise a matching row of the table |
| Rows.Count | server/storage.ts:259-261 | COUNT(*) … WHERE: at most the number of rows, and 0 iff no row matches |
| Rows.Take | server/storage.ts:113-115 | LIMIT n: a prefix of the rows of length min(n, rows) |
| Rows.Reverse | server/storage.ts:88-90 | ORDER BY id DESC over rows kept in id order: the rows back to front |
| Rows.NewestFirst | server/storage.ts:117-119 | WHERE then ORDER BY … DESC: exactly the matching rows, in strictly decreasing key order |
| Rows.SortBy | server/storage.ts:138-140 | ORDER BY a column: a permutation of the rows in non-decreasing key order |
| Rows.Update | server/storage.ts:103-106 | UPDATE … SET f WHERE p: same length, each matching row rewritten by f, every other row unchanged |
| Rows.UpdateShiftsSum | server/storage.ts:126-132 | an UPDATE adding d to a column of each matching row adds d × (matching rows) to the column's SUM |
| Rows.FirstOfUpdate | server/storage.ts:103-106 | UPDATE … RETURNING then `[row]`: the returned row is the old matching row with the patch applied, or nothing when no row matched |
| Rows.AppendAscending | server/storage.ts:97-100 | an INSERT with the next serial id keeps ids increasing and moves the bound |
| Rows.UpdateAscending | server/storage.ts:166-169 | an UPDATE that leaves the id alone keeps ids increasing and below the serial bound |
| Rows.FilterAscending | server/storage.ts:171-174 | a DELETE keeps ids increasing and below the serial bound |
| Rows.FilterKeepsIncreasing | server/storage.ts:117-119 | a WHERE keeps rows in increasing key order |
| Rows.FilterKeepsDistinct | server/storage.ts:117-119 | a WHERE keeps a unique column unique |
| Rows.ReverseOfIncreasing | server/storage.ts:271-273 | rows in increasing id order read back to front are in decreasing id order |
| Queries.GetCustomers | server/storage.ts:88-90 | getCustomers: every customer exactly once, highest id first |
| Queries.GetCustomer | server/storage.ts:92-95 | getCustomer: a stored customer with that id, or nothing iff none has it |
| Queries.GetActivities | server/storage.ts:113-115 | getActivities(limit): min(limit, all) stored activities, newest first, each newer than every one left out |
| Queries.GetCustomerActivities | server/storage.ts:117-119 | getCustomerActivities: exactly that customer's activities, newest first |
| Queries.GetTiers | server/storage.ts:138-140 | getTiers: a permutation of the tiers by non-decreasing threshold |
| Queries.GetTable | server/storage.ts:156-159 | getTable: a stored table with that id, or nothing iff none has it |
| Queries.GetTableSessions | server/storage.ts:176-181 | getTableSessions(activeOnly): the seated sessions when activeOnly, all otherwise; newest start first |
| Queries.GetFeedback | server/storage.ts:197-199 | getFeedback: every row, back to front, newest first |
| Queries.GetWallets | server/storage.ts:271-273 | getWallets: every wallet, back to front, highest id first |
| Queries.GetWallet | server/storage.ts:275-278 | getWallet: a stored wallet with that id, or nothing iff none has it |
| Queries.GetWalletByCustomerId | server/storage.ts:280-283 | getWalletByCustomerId: a wallet of that customer, or nothing iff the customer has none |
| Queries.GetWalletTransactions | server/storage.ts:305-309 | getWalletTransactions: exactly the rows of that wallet, newest first |
| Ledger.Delta | server/storage.ts:314-315 | a row's effect on its wallet: +amount for type 'credit', −amount for every other type |
| Ledger.WalletHistory | server/storage.ts:305-309 | the history of one wallet: exactly its rows, in strictly decreasing createdAt |
| Ledger.SumOfFilter | server/storage.ts:305-309 | a wallet's credit (debit) sum is the same over its filtered history as over the whole table |
| Ledger.SumOfReverse | server/storage.ts:305-309 | the sums do not change when the history is read newest first |
| Ledger.SumOfPermutation | server/storage.ts:305-309 | the sums are the same for any order of the same rows |
| Ledger.PostingKeepsReconciled | server/storage.ts:311-318 | appending a row and moving its wallet's balance by Delta keeps balance = opening + credits − debits; other wallets stay reconciled unchanged |
| Ledger.PostingAloneBreaksReconciled | server/storage.ts:312-315 | the insert alone, before the balance update, leaves a reconciled wallet unreconciled for any non-zero row |
| Ledger.HistoryReconstructsBalance | server/storage.ts:305-318 | for a reconciled wallet, opening balance + credits − debits of the history getWalletTransactions returns is its balance |
| Ledger.OpeningBalanceIsNotInLedger | server/storage.ts:285-288 | a new wallet has an empty history, so the history accounts for its balance iff the opening balance is 0 |
| Avatar.SplitOnSpace | server/storage.ts:98 | `split(' ')`: at least one piece, no piece holds a space |
| Avatar.JoinSplit | server/storage.ts:98 | splitting on spaces and joining with spaces gives the name back |
| Avatar.SplitJoin | server/storage.ts:98 | joining space-free pieces and splitting again gives the pieces back |
| Avatar.InitialsAreWordStarts | server/storage.ts:98 | the first letters of the pieces are exactly the characters that start a word |
| Avatar.Upper | server/storage.ts:98 | `toUpperCase`: same length, each character upper-cased |
| Avatar.AvatarOf | server/storage.ts:98 | the avatar is the first min(2, words) word-start characters, upper-cased |
| Stats.Tally | server/storage.ts:219-222 | GROUP BY channel: one group per key present, each counting exactly the rows with that key; counts add up to the rows |
| Stats.GroupCount | server/storage.ts:219-227 | every group's count is the number of rows with its key |
| Stats.TallySorted | server/storage.ts:224-227 | GROUP BY rating ORDER BY rating: the same grouping with strictly increasing keys |
| Stats.PositivePercent | server/storage.ts:229-235 | 0 when there are no reviews; otherwise an integer within one half of 100·positive/total (the nearest one, either neighbour at an exact half), always within 0..100 |
| Stats.GetFeedbackStats | server/storage.ts:206-239 | totalReviews is the row count; positivePercent is the share of ratings ≥ 4 rounded to a nearest percent; byChannel and byRating group all rows, byRating in rating order |
| Stats.GetDashboardStats | server/storage.ts:241-269 | revenue is the sum of spend, members the customer count, visits the sum of visits, rewards the count of 'reward' activities |
| Storage.DatabaseStorage.constructor | server/storage.ts:321 | the store starts with empty tables, valid and reconciled |
| Storage.DatabaseStorage.CreateCustomer | server/storage.ts:97-101 | rejected iff a stored customer has the email, leaving the table as it was; otherwise appends the row with the next id and the computed avatar; the serial advances either way |
| Storage.DatabaseStorage.UpdateCustomer | server/storage.ts:103-106 | refused (the store throws) iff the patch sets no column or would duplicate an email, with nothing changed; otherwise the UPDATE, returning the patched old row or nothing |
| Storage.DatabaseStorage.DeleteCustomer | server/storage.ts:108-111 | removes exactly the customers with that id; reports true iff one existed |
| Storage.DatabaseStorage.CreateActivity | server/storage.ts:121-136 | appends the row stamped now; for a 'visit' the customer's counters move, for any other type no customer changes |
| Storage.DatabaseStorage.CountVisit | server/storage.ts:124-133 | the visit UPDATE on the customers table, keeping ids and emails valid |
| Storage.DatabaseStorage.CreateTier | server/storage.ts:142-145 | appends the tier with the next id |
| Storage.DatabaseStorage.UpdateTier | server/storage.ts:147-150 | refused with nothing changed iff the patch sets no column (an empty SET); otherwise the UPDATE, returning the patched old tier or nothing |
| Storage.DatabaseStorage.CreateTable | server/storage.ts:161-164 | appends the table with the next id |
| Storage.DatabaseStorage.UpdateTable | server/storage.ts:166-169 | refused with nothing changed iff the patch sets no column (an empty SET); otherwise the UPDATE, returning the patched old table or nothing |
| Storage.DatabaseStorage.DeleteTable | server/storage.ts:171-174 | removes exactly the tables with that id; reports true iff one existed |
| Storage.DatabaseStorage.MarkTable | server/storage.ts:183-195 | the table-status UPDATE of seating and clearing, keeping the store valid |
| Storage.DatabaseStorage.CreateTableSession | server/storage.ts:183-187 | appends the session stamped now with a null customer when none is given, then occupies its table: the table takes the given customer (null included) and keeps its own when the payload omits it |
| Storage.DatabaseStorage.UpdateTableSession | server/storage.ts:189-195 | refused with sessions and tables unchanged iff the patch sets no column; otherwise patches the session, and when one was found and the patch sets 'cleared', its table becomes available with no customer; otherwise tables are untouched |
| Storage.DatabaseStorage.CreateFeedback | server/storage.ts:201-204 | appends the row with the next id, stamped now |
| Storage.DatabaseStorage.CreateWallet | server/storage.ts:285-288 | appends the wallet with the given balance as is and writes no transaction row; the ledger stays reconciled |
| Storage.DatabaseStorage.UpdateWalletBalance | server/storage.ts:290-303 | moves only the wallet with that id by ±amount, with no floor, and stamps it; returns the moved wallet, or nothing for an unknown id (no change) |
| Storage.DatabaseStorage.InsertTransaction | server/storage.ts:312 | the first step of createWalletTransaction: appends exactly one row with the given fields |
| Storage.DatabaseStorage.CreateWalletTransaction | server/storage.ts:311-318 | appends one row with the next id stamped at the first tick, then moves that wallet by Delta of the row at the second; the clock advances by two, the serial by one, and the ledger stays reconciled |
| Storage.AdjustKeepsWallets | server/storage.ts:290-303 | a balance change keeps wallet ids serial; the wallet found afterwards is the old one moved |
| Storage.OpeningKeepsLedger | server/storage.ts:285-288 | a new wallet seeded with its own balance keeps every wallet reconciled |
| Storage.PostingKeepsLedger | server/storage.ts:311-318 | row plus balance update keeps every wallet of the table reconciled |
| Storage.VisitKeepsCustomersOk | server/storage.ts:124-133 | a visit changes neither ids nor emails |
| Storage.InsertKeepsCustomersOk | server/storage.ts:97-100 | inserting with the next id and an unused email keeps ids serial and emails unique |
| Storage.PatchKeepsEmailsDistinct | server/storage.ts:103-106 | an update that raises no email conflict keeps emails unique |
| Storage.VisitUpdatesCounters | server/storage.ts:121-136 | a visit gives each matching customer one more visit, the amount added to spend and lastVisit now; others unchanged; the sums of visits and spend move accordingly |
| Storage.SeatThenClear | server/storage.ts:183-195 | seating occupies the table, with the given customer or, when omitted, the one it had; clearing afterwards leaves the tables as clearing alone would |
| Storage.ClearAvailableIsNoOp | server/storage.ts:189-195 | clearing a table that is already available with nobody at it changes nothing |
| Routes.ParseId | server/routes.ts:7 | a path id is accepted iff it is a non-empty digit string whose value is ≥ 1 and below `Overflow` (2^1024 − 2^970, where `Number` gives Infinity and `.int()` refuses), and is that value |
| Routes.ParseIdOfDecimal | server/routes.ts:7 | every positive id below `Overflow` written in decimal is accepted, as its exact value |
| Routes.HugeIdIsRefused | server/routes.ts:7 | an id of `Overflow` or more, which `Number` turns into Infinity, is refused |
| Routes.ZerosAreRefused | server/routes.ts:7 | zero, with any number of digits, is refused |
| Routes.Limit | server/routes.ts:102-110 | 10 when the parameter is absent or empty; refused iff parseInt gives NaN, a value < 1 or Infinity (`Overflow` or more); otherwise parseInt's value |
| Routes.ParseIntPrefix | server/routes.ts:105 | `parseInt(s, 10)`: skips JavaScript white space, takes one sign, reads the longest digit run; nothing (NaN) when there is no digit |
| Routes.ParseSkipsLeadingSpace | server/routes.ts:105 | any JavaScript white space character in front (U+00A0 and U+FEFF included) changes nothing parseInt reads |
| Routes.LimitOfDecimal | server/routes.ts:105-109 | a positive limit in decimal below `Overflow` is taken as itself |
| Routes.LimitIgnoresTrailingText | server/routes.ts:105 | digits below `Overflow` followed by text count for what the digits say |
| Routes.ReadById | server/routes.ts:315-329 | GET by id: 400 iff the id is bad, with the store never consulted; 500 iff the store fails; 404 iff it finds nothing; 200 with the row otherwise |
| Routes.ReadWalletOfCustomer | server/routes.ts:331-342 | never 404: a customer without a wallet gets 200 with null |
| Routes.ReadList | server/routes.ts:25-32 | a list GET is 200 with what the store returned iff the store succeeded, else 500 |
| Routes.ReadActivities | server/routes.ts:100-116 | 400 iff the limit is refused; otherwise the list read with the limit (10 by default) |
| Routes.ActiveOnly | server/routes.ts:236 | active-only iff the query value is exactly "true" |
| Routes.ReadTableSessions | server/routes.ts:234-241 | 500 iff the store throws; otherwise 200 with exactly the stored sessions (only the seated ones iff `active` is "true"), latest start first |
| Routes.OnlyTrueFiltersSessions | server/routes.ts:236 | `active` set to "1", "TRUE" or "yes" replies as no value does, and that reply lists every stored session |
| Routes.ReadTransactions | server/routes.ts:358-369 | 400 on a bad wallet id; otherwise the list read for that id |
| Routes.CreateFrom | server/routes.ts:344-355 | a POST answers 400 iff the body fails the schema, 500 iff the store fails, 201 with the row otherwise |
| Routes.PatchById | server/routes.ts:63-81 | PATCH: 400 for a bad id or body, 500 on a store failure, 404 when nothing was updated, 200 with the row |
| Routes.PatchSessionById | server/routes.ts:257-271 | PATCH of a session: the body goes unvalidated; 400 only for a bad id |
| Routes.DeleteById | server/routes.ts:83-97 | DELETE: 204 iff the store removed a row, 404 iff it removed none, 400 on a bad id, 500 on failure |
| Routes.CreateTransaction | server/routes.ts:371-389 | 400 on a bad path id; otherwise a create whose body has walletId replaced by the path id |
| Routes.BodyWalletIdIsIgnored | server/routes.ts:377-380 | any walletId in the body, or none, gives the same reply |
| Routes.CreatedTransactionNamesPathWallet | server/routes.ts:371-383 | a 201 carries a row of the wallet in the path whatever the body said, given a schema that keeps a numeric walletId and a store that keeps the payload's wallet |
| Routes.StoredCustomerIsServed | server/routes.ts:34-48 | GET /api/customers/:id of a stored customer's id (a serial, so within int4) is 200 with that customer |
| Routes.FetchCustomer | server/storage.ts:92-95 | getCustomer: the customer with that id, or none; a thrown error for an id beyond the int4 range of the column |
| Routes.MissingCustomerIsNotFound | server/routes.ts:34-46 | GET /api/customers/:id of an id nobody has is 404 "Customer not found" up to 2147483647, 500 "Failed to fetch customer" beyond it, and 400 "Invalid customer ID" from `Overflow` on |
| Campaigns.FilteredCustomers | client/src/pages/Campaigns.tsx:74-78 | a customer is listed iff the tier filter is "all" or matches, the segment filter is "all" or matches, and the phone is non-empty |
| Campaigns.FilterNarrows | client/src/pages/Campaigns.tsx:74-78 | any filter lists a subset of the "all"/"all" list, which is the customers with a phone |
| Campaigns.CustomerIds | client/src/pages/Campaigns.tsx:90 | `filteredCustomers.map(c => c.id)`: the ids in list order |
| Campaigns.Toggled | client/src/pages/Campaigns.tsx:80-84 | the id is selected afterwards iff it was not before; other ids keep their state; a new id is appended at the end |
| Campaigns.ToggleTwice | client/src/pages/Campaigns.tsx:80-84 | toggling an unselected id twice restores the selection |
| Campaigns.ToggleKeepsDistinct | client/src/pages/Campaigns.tsx:80-84 | toggling never selects an id twice |
| Campaigns.SelectAllResult | client/src/pages/Campaigns.tsx:86-92 | selectAll as written: clears when the selection is as long as the filtered list, and otherwise becomes exactly the filtered ids in list order, which selects every filtered customer |
| Campaigns.HeaderChecked | client/src/pages/Campaigns.tsx:209 | the header box shows checked iff the list is non-empty and a press would clear the selection |
| Campaigns.SelectAllTwiceClears | client/src/pages/Campaigns.tsx:86-92 | from a selection whose size differs from the list, two presses clear it |
| Campaigns.SelectAllMissesUnselected | client/src/pages/Campaigns.tsx:86-92 | a reachable state where the header shows checked with a listed customer unselected, and a press clears instead of selecting |
| Campaigns.SelectAllIntendedSelects | client/src/pages/Campaigns.tsx:209-210 | corrected select-all: a press selects every listed customer unless all were selected, and clears only then |
| Campaigns.DemoIsNumbered | client/src/pages/Campaigns.tsx:29-50 | the starting campaigns have distinct ids 1..n and delivery counts that add up |
| Campaigns.PrependKeepsNumbered | client/src/pages/Campaigns.tsx:102-114 | the new campaign (id = count + 1) put first keeps ids distinct in 1..n and counts accounted |
| Campaigns.TotalMessages | client/src/pages/Campaigns.tsx:415 | the reduce: the sum of every campaign's recipients, hence non-negative and at least each one's |
| Campaigns.SentCount | client/src/pages/Campaigns.tsx:413 | the number of sent campaigns: at most the list, 0 iff none is sent |
| Campaigns.ScheduledCount | client/src/pages/Campaigns.tsx:414 | the number of scheduled campaigns: at most the list, 0 iff none is scheduled |
| Campaigns.SentAndScheduledAreDisjoint | client/src/pages/Campaigns.tsx:413-414 | sent plus scheduled never exceed the campaigns |
| Campaigns.CreatingMovesStats | client/src/pages/Campaigns.tsx:413-415 | creating moves "sent" (now) or "scheduled" (later) by one and the total by the recipients |
| Campaigns.CampaignWizard.constructor | client/src/pages/Campaigns.tsx:52-65 | the page starts closed, on step 1, nothing selected, filters "all", blank form, demo campaigns |
| Campaigns.CampaignWizard.ResetForm | client/src/pages/Campaigns.tsx:94-100 | step 1, empty selection, blank form with "now", both filters "all" |
| Campaigns.CampaignWizard.SetOpen | client/src/pages/Campaigns.tsx:154 | opening keeps the wizard; closing also resets the form |
| Campaigns.CampaignWizard.SetFilters | client/src/pages/Campaigns.tsx:176-188 | sets the two filters |
| Campaigns.CampaignWizard.ToggleCustomer | client/src/pages/Campaigns.tsx:227 | a row click toggles that customer |
| Campaigns.CampaignWizard.SelectAll | client/src/pages/Campaigns.tsx:209-210 | the header checkbox, with the corrected rule (see Findings) |
| Campaigns.CampaignWizard.GoToCompose | client/src/pages/Campaigns.tsx:259-261 | step 2 iff at least one customer is selected, else stays on 1 |
| Campaigns.CanCompose | client/src/pages/Campaigns.tsx:259-261 | step 1's "Continuar" is enabled iff a customer is selected; the wizard's Valid() demands it on steps 2 and 3 |
| Campaigns.CampaignWizard.EditMessage | client/src/pages/Campaigns.tsx:278-289 | sets name and message, nothing else |
| Campaigns.CampaignWizard.BackToRecipients | client/src/pages/Campaigns.tsx:309 | back to step 1 |
| Campaigns.CampaignWizard.GoToSchedule | client/src/pages/Campaigns.tsx:312-314 | step 3 iff name and message are non-empty, else stays on 2 |
| Campaigns.CanSchedule | client/src/pages/Campaigns.tsx:312-314 | step 2's "Continuar" is enabled iff name and message are non-empty; Valid() demands it on step 3 |
| Campaigns.CampaignWizard.EditSchedule | client/src/pages/Campaigns.tsx:330-374 | sets schedule type, date and time, nothing else |
| Campaigns.CampaignWizard.BackToCompose | client/src/pages/Campaigns.tsx:392 | back to step 2 |
| Campaigns.CampaignWizard.HandleCreateCampaign | client/src/pages/Campaigns.tsx:102-125 | prepends the campaign built from the form (id = count + 1, recipients = selection size), closes the dialog and resets the form |
| Campaigns.CampaignWizard.Submit | client/src/pages/Campaigns.tsx:395-397 | creates iff not blocked; when blocked nothing changes (campaigns, step, form, selection, filters, dialog); when created the dialog is closed, the step is 1 and the selection, form and filters are reset; a created campaign has recipients, a name and a message, is scheduled iff "later" and then has a date and a time |
| Campaigns.SubmitBlocked | client/src/pages/Campaigns.tsx:395-397 | the send button is disabled iff the campaign is scheduled for later and lacks a date or a time |
| WalletsPage.CustomerName | client/src/pages/Wallets.tsx:92-95 | never empty; "Desconocido" for an id no customer has; any other text is the name of a customer with that id |
| WalletsPage.ListedCustomerIsNamed | client/src/pages/Wallets.tsx:92-95 | with distinct ids, a listed customer with a name is shown by that name |
| WalletsPage.CustomersWithoutWallet | client/src/pages/Wallets.tsx:97-99 | a customer is offered iff listed and no wallet names its id |
| WalletsPage.OfferedCustomerGetsOneWallet | client/src/pages/Wallets.tsx:135-140 | a wallet opened for an offered customer keeps one wallet per customer, and that customer is no longer offered |
| WalletsPage.ActiveWallets | client/src/pages/Wallets.tsx:102 | at most the wallet count, and 0 iff no wallet is "active" |
| WalletsPage.TotalPoints | client/src/pages/Wallets.tsx:101 | the reduce: the sum of every wallet's balance; `PostingMovesTotal` gives how a posting moves it |
| WalletsPage.PostingMovesTotal | client/src/pages/Wallets.tsx:101 | after a posting, the total points move by the row's signed amount when its wallet exists, and not at all otherwise |
| WalletsPage.AdjustKeepsActive | client/src/pages/Wallets.tsx:102 | balance changes never change the active count |
| WalletsPage.NumberInput | client/src/pages/Wallets.tsx:193 | `parseInt(v) \|\| 0`: parseInt's value, or 0 when it reads nothing |
| WalletsPage.NumberInputOfDecimal | client/src/pages/Wallets.tsx:152 | a positive number typed in is taken as itself |
| WalletsPage.WalletRequest | client/src/pages/Wallets.tsx:70-77 | the request carries a customer id iff parseInt reads one, and it is the id parseInt reads; balance and status as in the form |
| WalletsPage.CanCreateWallet | client/src/pages/Wallets.tsx:159 | the create button is enabled iff nothing is pending and a customer is chosen |
| WalletsPage.ChosenCustomerIsRequested | client/src/pages/Wallets.tsx:135-139 | choosing an offered customer enables submit and the request names that customer |
| WalletsPage.TransactionRequest | client/src/pages/Wallets.tsx:79-90 | nothing without a selected wallet; otherwise that wallet, the form's type and amount, and an empty description sent as null |
| WalletsPage.CanPostTransaction | client/src/pages/Wallets.tsx:210 | the post button is enabled iff nothing is pending and the amount is positive |
| WalletsPage.SignMatchesLedger | client/src/pages/Wallets.tsx:368 | for amounts the form lets through, "+" is shown iff the server adds and "-" iff it subtracts |
| WalletsPage.LabelOfPostedRow | client/src/pages/Wallets.tsx:358 | a posted row shows the typed description, or the default for its type when it was left empty |

## Left out

- Users (`getUser`, `getUserByUsername`, `createUser`): not part of this model.
- `getTables`: not modelled. It orders by name under the database's collation, which the code does not fix.
- Postgres itself is not modelled:
  - isolation and atomicity;
  - concurrent requests;
  - foreign keys.
- Each SQL statement is one step of a method.
- The `await`s are not modelled. A store failure appears in `Routes` only as the `Failed` outcome.
- Express, JSON and zod internals are not modelled:
  - a handler receives the schema's verdict (`Parsed`/`SchemaError`) and the store's outcome;
  - the schema's own rules are not modelled.
- Routes.ParseId: accepts only plain decimal digit strings. `z.coerce.number()` would also accept forms such as " 12", "1e1" or "12.0". The model refuses them.
- Routes.ParseId: above 2^53, `Number` rounds a digit string to the nearest double, while the model keeps its exact value. Such an id lies beyond the int4 range either way. Ids worth `Overflow` or more become Infinity and are refused in both.
- Routes.ParseIdOfDecimal: "accepted as itself" is exact only up to 2^53. Above that the source accepts the rounded double.
- Routes.Limit: above 2^53, `parseInt` rounds to the nearest double, while the model keeps the exact value. Infinity, from `Overflow` on, is refused in both.
- WalletsPage.NumberInput: `parseInt` is read over unbounded integers. JavaScript's rounding above 2^53, and its Infinity from `Overflow` on, are not modelled in the form inputs.
- Stats.GetDashboardStats: holds `activeMembers`, `loyaltyVisits` and `rewardsRedeemed` as numbers, where the driver may hand the bigint `COUNT(*)` and `SUM` over as their text.
- Stats.GetFeedbackStats: leaves out `avgRating`, which is floating point (SQL AVG and parseFloat). `totalReviews` is held as a number, where the driver may hand the bigint `COUNT(*)` over as its text.
- Stats.PositivePercent: the double-precision `(positive / total) * 100` is not modelled. The contract admits either neighbour at an exact half (23 of 40 gives 57 in the source, as 57.49999999999999 rounds down), and the definition picks the upper one. Off a half, both give the nearest integer.
- Serial counters are unbounded: an insert past the int4 range of a serial column, which Postgres refuses, is not modelled. `Routes.StoredCustomerIsServed` takes a stored id to lie within that range.
- Storage.DatabaseStorage.UpdateTableSession: the PATCH body is forwarded unchecked, so it can also set `id`, `startedAt` or any other column. The patch covers only `tableId`, `customerId`, `partySize`, `status` and `endedAt`. Rewriting `id` or `startedAt` would break the serial and start-time order that the session reads rely on. A body that sets only such columns counts here as a patch that sets nothing, and so is refused.
- Money columns are integer cents. `parseFloat` of decimal strings, and floating-point rounding of spend, are not modelled.
- Storage.DatabaseStorage.CreateActivity: the amount arrives as integer cents. An absent amount is 0, as the column default gives. An explicit null is also 0 here, where the source row keeps null (the visit still adds 0 to spend). The `parseFloat` of the decimal string is not modelled.
- `new Date()` is a monotone counter (`clock`) for the server. For `handleCreateCampaign` it is a `now` parameter.
- Avatar.Upper: covers ASCII letters only and keeps the length. JavaScript's full Unicode `toUpperCase` is not modelled. It can change the length, as 'ß' becomes "SS".
- Avatar.AvatarOf: inherits the ASCII-only upper-casing. Strings are sequences of Unicode scalar values, where `n[0]` and `slice(0, 2)` index UTF-16 code units. For a word starting outside the Basic Multilingual Plane ("𝒜na Bo"), the source takes half a surrogate pair; the model takes the whole character.
- The Wallets page does not model:
  - the average `Math.round(totalPoints / wallets.length)`, which is floating point;
  - toasts and query invalidation;
  - opening and closing the dialogs, and the form resets after a success;
  - the loading state.
- The Campaigns page does not model:
  - toasts;
  - the loading state of the customer query;
  - the simulated delivery: a campaign sent "now" is recorded as sent with every message delivered, and nothing is sent.
- The ledger invariant is stated with ghost bookkeeping: the opening balance and the number of rows when each wallet was created. The code stores neither.

Where the specification and the code disagree, the model follows the code:

- No unique constraint on a wallet's customer is enforced. Only the Wallets page filter keeps one wallet per customer (`WalletsPage.OfferedCustomerGetsOneWallet`).
- The server does not check `amount > 0`. Only the Wallets page's disabled button does.
- The insert and the balance update of `createWalletTransaction` are two separate steps, not one atomic transaction. `Ledger.PostingAloneBreaksReconciled` shows the state between them.
- The balance has no floor, so a debit can make it negative.

## Findings

| source | as written | input that shows it | evidently intended | confidence | as-written member | corrected member |
|---|---|---|---|---|---|---|
| client/src/pages/Campaigns.tsx:86-92 | `selectAll` clears the selection whenever its length equals the length of the filtered list. The header checkbox shows checked on the same test (line 209). | Ana (id 1, Gold) and Luis (id 2, Silver), both with phones. Filter by Gold and select Ana, then filter by Silver. The box shows checked with Luis unselected, and pressing it clears the selection instead of selecting Luis. | Clear only when every filtered customer is already selected; otherwise select them all. | not executed | Campaigns.SelectAllMissesUnselected | Campaigns.SelectAllIntendedSelects |

=== FILE: avatar.dfy ===
/** The customer avatar the store computes on insert: the first character of
    every space-separated piece of the name, upper-cased, at most two of them. */
module Avatar {

  /** `name.split(' ')`: the pieces between single spaces, empty pieces
      included; the empty string gives one empty piece. */
  function SplitOnSpace(s: string): (r: seq<string>)
    ensures |r| >= 1
    ensures forall i :: 0 <= i < |r| ==> ' ' !in r[i]
  {
    if s == [] then [""]
    else
      var rest := SplitOnSpace(s[1..]);
      if s[0] == ' ' then [""] + rest
      else
        assert forall i :: 1 <= i < |rest| ==> ' ' !in rest[i];
        [[s[0]] + rest[0]] + rest[1..]
  }

  /** `pieces.join(' ')`. */
  function JoinWithSpace(ws: seq<string>): string
    requires |ws| >= 1
  {
    if |ws| == 1 then ws[0] else ws[0] + " " + JoinWithSpace(ws[1..])
  }

  /** `.map(n => n[0]).join('')`: an empty piece yields `undefined`, which
      `join` writes as nothing. */
  function FirstLetters(ws: seq<string>): string {
    if ws == [] then ""
    else (if ws[0] == "" then "" else [ws[0][0]]) + FirstLetters(ws[1..])
  }

  /** The characters that start a word: not a space, and first in the string
      or right after a space (`atStart` says whether the previous character
      was a space or there was none). */
  function WordStarts(s: string, atStart: bool): string {
    if s == [] then ""
    else if s[0] == ' ' then WordStarts(s[1..], true)
    else (if atStart then [s[0]] else "") + WordStarts(s[1..], false)
  }

  function UpperAscii(c: char): char {
    if 'a' <= c <= 'z' then (c as int - 32) as char else c
  }

  function Upper(s: string): (r: string)
    ensures |r| == |s|
    ensures forall i :: 0 <= i < |s| ==> r[i] == UpperAscii(s[i])
  {
    if s == [] then "" else [UpperAscii(s[0])] + Upper(s[1..])
  }

  /** `name.split(' ').map(n => n[0]).join('').toUpperCase().slice(0, 2)`. */
  function AvatarOf(name: string): (r: string)
    ensures |r| == if |WordStarts(name, true)| < 2 then |WordStarts(name, true)| else 2
    ensures r == Upper(WordStarts(name, true))[..|r|]
  {
    var u := Upper(FirstLetters(SplitOnSpace(name)));
    InitialsAreWordStarts(name);
    if |u| < 2 then u else u[..2]
  }

  lemma {:induction false} FirstLettersAppend(a: seq<string>, b: seq<string>)
    ensures FirstLetters(a + b) == FirstLetters(a) + FirstLetters(b)
  {
    if a != [] {
      assert (a + b)[1..] == a[1..] + b;
      FirstLettersAppend(a[1..], b);
    } else {
      assert a + b == b;
    }
  }

  /** The pieces' first letters are exactly the word-start characters; the
      first letters of the pieces after the first are the word starts of a
      string read as if it continued a word. */
  lemma {:induction false} InitialsAreWordStarts(s: string)
    ensures FirstLetters(SplitOnSpace(s)) == WordStarts(s, true)
    ensures FirstLetters(SplitOnSpace(s)[1..]) == WordStarts(s, false)
  {
    if s != [] {
      var rest := SplitOnSpace(s[1..]);
      InitialsAreWordStarts(s[1..]);
      if s[0] == ' ' {
        FirstLettersAppend([""], rest);
        assert SplitOnSpace(s)[1..] == rest;
      } else {
        var first := [s[0]] + rest[0];
        assert SplitOnSpace(s) == [first] + rest[1..];
        FirstLettersAppend([first], rest[1..]);
        assert SplitOnSpace(s)[1..] == rest[1..];
      }
    }
  }

  /** Splitting on spaces and joining with spaces gives back the name. */
  lemma {:induction false} JoinSplit(s: string)
    ensures JoinWithSpace(SplitOnSpace(s)) == s
  {
    if s != [] {
      var rest := SplitOnSpace(s[1..]);
      JoinSplit(s[1..]);
      if s[0] == ' ' {
        assert ([""] + rest)[1..] == rest;
      } else {
        var ws := [[s[0]] + rest[0]] + rest[1..];
        if |rest| == 1 {
          assert JoinWithSpace(ws) == [s[0]] + rest[0];
        } else {
          assert ws[1..] == rest[1..];
          assert JoinWithSpace(rest) == rest[0] + " " + JoinWithSpace(rest[1..]);
        }
      }
    }
  }

  /** Joining space-free pieces with spaces and splitting again gives back
      the pieces. */
  lemma {:induction false} SplitJoin(ws: seq<string>)
    requires |ws| >= 1
    requires forall i :: 0 <= i < |ws| ==> ' ' !in ws[i]
    ensures SplitOnSpace(JoinWithSpace(ws)) == ws
  {
    if |ws| == 1 {
      SplitWord(ws[0], []);
      assert ws[0] + [] == ws[0] && ws == [ws[0]];
    } else {
      var tail := " " + JoinWithSpace(ws[1..]);
      SplitJoin(ws[1..]);
      SplitWord(ws[0], tail);
      assert tail[1..] == JoinWithSpace(ws[1..]);
      assert JoinWithSpace(ws) == ws[0] + tail;
      assert ws == [ws[0]] + ws[1..];
    }
  }

  /** A space-free piece in front of a string becomes the head of the
      string's first piece. */
  lemma {:induction false} SplitWord(w: string, tail: string)
    requires ' ' !in w
    requires tail == [] || tail[0] == ' '
    ensures SplitOnSpace(w + tail) == [w + SplitOnSpace(tail)[0]] + SplitOnSpace(tail)[1..]
    ensures tail == [] ==> SplitOnSpace(w + tail) == [w]
    ensures tail != [] ==> SplitOnSpace(w + tail) == [w] + SplitOnSpace(tail[1..])
  {
    if w == [] {
      assert w + tail == tail;
      if tail != [] {
        assert SplitOnSpace(tail) == [""] + SplitOnSpace(tail[1..]);
      }
    } else {
      assert w[0] in w;
      assert (w + tail)[0] == w[0] && (w + tail)[1..] == w[1..] + tail;
      SplitWord(w[1..], tail);
      var rest := SplitOnSpace(w[1..] + tail);
      assert SplitOnSpace(w + tail) == [[w[0]] + rest[0]] + rest[1..];
      assert [w[0]] + (w[1..] + SplitOnSpace(tail)[0]) == w + SplitOnSpace(tail)[0];
      if tail != [] {
        assert SplitOnSpace(tail) == [""] + SplitOnSpace(tail[1..]);
        assert w + "" == w;
      } else {
        assert SplitOnSpace(tail) == [""] && w + "" == w;
      }
    }
  }
}

=== FILE: campaigns.dfy ===
/** The WhatsApp campaign page (client/src/pages/Campaigns.tsx): the list of
    campaigns and the three-step wizard that creates one, held as the page's
    local state. Nothing is delivered: a campaign sent "now" is only recorded
    as sent. */
module Campaigns {
  import opened Rows
  import opened Schema

  datatype Status = Draft | Scheduled | Sent | Failed

  datatype Campaign = Campaign(
    id: int,
    name: string,
    message: string,
    status: Status,
    recipients: nat,
    scheduledAt: Option<string>,
    sentAt: Option<string>,
    delivered: nat,
    failed: nat)

  /** The two buttons of step 3: "now" and "scheduled". */
  datatype ScheduleType = Now | Later

  datatype CampaignData = CampaignData(
    name: string,
    message: string,
    scheduleType: ScheduleType,
    scheduledDate: string,
    scheduledTime: string)

  const BlankData := CampaignData("", "", Now, "", "")

  /** The filter value that lets every tier (or segment) through. */
  const All := "all"

  /** The campaigns the page starts with. */
  const DemoCampaigns: seq<Campaign> := [
    Campaign(1, "Promoción de Verano",
             "¡Hola! Te invitamos a disfrutar de un 20% de descuento en tu próxima visita. Válido hasta fin de mes.",
             Sent, 145, None, Some("2026-01-08T14:30:00"), 142, 3),
    Campaign(2, "Recordatorio VIP",
             "Como cliente VIP, tienes acceso exclusivo a nuestro nuevo menú degustación. ¡Reserva ahora!",
             Scheduled, 28, Some("2026-01-15T10:00:00"), None, 0, 0)]

  // ---- Recipients ---------------------------------------------------------------

  /** A phone counts only when present and non-empty (the value is tested for truthiness). */
  predicate HasPhone(c: Customer) {
    c.phone.Some? && c.phone.value != ""
  }

  predicate Reachable(c: Customer, tier: string, segment: string) {
    (tier == All || c.tier == tier) && (segment == All || c.segment == segment) && HasPhone(c)
  }

  function ReachableBy(tier: string, segment: string): Customer -> bool {
    (c: Customer) => Reachable(c, tier, segment)
  }

  /** `filteredCustomers`: the customers the two filters let through that have a phone, in list order. */
  function FilteredCustomers(cs: seq<Customer>, tier: string, segment: string): (r: seq<Customer>)
    ensures forall c :: c in r <==> (c in cs && (tier == All || c.tier == tier)
                                    && (segment == All || c.segment == segment) && HasPhone(c))
    ensures |r| <= |cs|
  {
    Filter(cs, ReachableBy(tier, segment))
  }

  /** Narrowing a filter never lets more customers through. */
  lemma FilterNarrows(cs: seq<Customer>, tier: string, segment: string)
    ensures forall c :: c in FilteredCustomers(cs, tier, segment) ==> c in FilteredCustomers(cs, All, All)
    ensures forall c :: c in FilteredCustomers(cs, All, All) <==> c in cs && HasPhone(c)
  {
  }

  function CustomerIds(cs: seq<Customer>): (r: seq<int>)
    ensures |r| == |cs| && forall i :: 0 <= i < |cs| ==> r[i] == cs[i].id
  {
    if cs == [] then [] else [cs[0].id] + CustomerIds(cs[1..])
  }

  function Other(id: int): int -> bool { (x: int) => x != id }

  /** `toggleCustomer`: drops the id when it is selected, appends it otherwise. */
  function Toggled(sel: seq<int>, id: int): (r: seq<int>)
    ensures id in r <==> id !in sel
    ensures forall x :: x != id ==> (x in r <==> x in sel)
    ensures id !in sel ==> |r| == |sel| + 1 && r[..|sel|] == sel
  {
    if id in sel then Filter(sel, Other(id)) else sel + [id]
  }

  lemma {:induction false} DroppingAbsent(s: seq<int>, id: int)
    requires id !in s
    ensures Filter(s, Other(id)) == s
  {
    if s != [] {
      DroppingAbsent(s[1..], id);
      assert s == [s[0]] + s[1..];
    }
  }

  /** Toggling an unselected customer twice restores the selection. */
  lemma ToggleTwice(sel: seq<int>, id: int)
    requires id !in sel
    ensures Toggled(Toggled(sel, id), id) == sel
  {
    var once := sel + [id];
    DroppingAbsent(sel, id);
    assert once == sel + [id];
    FilterAppend(sel, [id], Other(id));
    assert Filter([id], Other(id)) == [] by { assert [id][1..] == []; }
  }

  lemma {:induction false} FilterAppend(a: seq<int>, b: seq<int>, p: int -> bool)
    ensures Filter(a + b, p) == Filter(a, p) + Filter(b, p)
  {
    if a != [] {
      var ab := a + b;
      assert ab[0] == a[0] && ab[1..] == a[1..] + b;
      FilterAppend(a[1..], b, p);
    } else {
      assert a + b == b;
    }
  }

  function Itself(x: int): int { x }

  /** No customer is ever selected twice by toggling. */
  lemma ToggleKeepsDistinct(sel: seq<int>, id: int)
    requires DistinctBy(sel, Itself)
    ensures DistinctBy(Toggled(sel, id), Itself)
  {
    if id in sel {
      FilterKeepsDistinct(sel, Other(id), Itself);
    } else {
      var r := sel + [id];
      forall i, j | 0 <= i < j < |r| ensures r[i] != r[j] {
        if j == |sel| { assert r[i] == sel[i] && sel[i] in sel; }
      }
    }
  }

  /** `selectAll` as written: the selection is cleared when it is as long as
      the filtered list, and becomes the filtered ids otherwise. Only the
      lengths are compared. */
  function SelectAllResult(sel: seq<int>, filtered: seq<Customer>): (r: seq<int>)
    ensures |sel| == |filtered| ==> r == []
    ensures |sel| != |filtered| ==> r == CustomerIds(filtered)
    ensures |sel| != |filtered| ==> forall c :: c in filtered ==> c.id in r
  {
    if |sel| == |filtered| then [] else
      var r := CustomerIds(filtered);
      assert forall c :: c in filtered ==> c.id in r by {
        forall c | c in filtered ensures c.id in r {
          var k :| 0 <= k < |filtered| && filtered[k] == c;
          assert r[k] == c.id;
        }
      }
      r
  }

  /** Pressing select-all twice from a partial selection ends with nothing selected. */
  lemma SelectAllTwiceClears(sel: seq<int>, filtered: seq<Customer>)
    requires |sel| != |filtered|
    ensures SelectAllResult(SelectAllResult(sel, filtered), filtered) == []
  {
  }

  /** The header checkbox of the recipients table. It applies the same
      length test as `selectAll`, so it shows checked exactly when a press
      would clear a non-empty list's selection. */
  function HeaderChecked(sel: seq<int>, filtered: seq<Customer>): (b: bool)
    ensures b <==> |filtered| > 0 && SelectAllResult(sel, filtered) == []
  {
    |sel| == |filtered| && |filtered| > 0
  }

  /** Every customer of the filtered list is selected. */
  ghost predicate AllSelected(sel: seq<int>, filtered: seq<Customer>) {
    forall c :: c in filtered ==> c.id in sel
  }

  /** After one filter is used to select a customer and the filter is then
      switched to another single customer, the header box shows checked
      though that customer is not selected, and pressing it clears the
      selection instead of selecting them. */
  lemma SelectAllMissesUnselected()
    ensures var a := Customer(1, "Ana", "ana@example.com", Some("600"), "Gold", "VIP", 0, 0, None, None);
            var b := Customer(2, "Luis", "luis@example.com", Some("601"), "Silver", "VIP", 0, 0, None, None);
            var filtered := FilteredCustomers([a, b], "Silver", All);
            && FilteredCustomers([a, b], "Gold", All) == [a]
            && filtered == [b]
            && HeaderChecked([1], filtered) && !AllSelected([1], filtered)
            && SelectAllResult([1], filtered) == []
  {
    var a := Customer(1, "Ana", "ana@example.com", Some("600"), "Gold", "VIP", 0, 0, None, None);
    var b := Customer(2, "Luis", "luis@example.com", Some("601"), "Silver", "VIP", 0, 0, None, None);
    assert [a, b][1..] == [b] && [b][1..] == [];
    assert Reachable(a, "Gold", All) && !Reachable(b, "Gold", All);
    assert !Reachable(a, "Silver", All) && Reachable(b, "Silver", All);
    assert Filter([b], ReachableBy("Gold", All)) == [];
    assert Filter([a, b], ReachableBy("Gold", All)) == [a];
    assert Filter([b], ReachableBy("Silver", All)) == [b];
    assert Filter([a, b], ReachableBy("Silver", All)) == [b];
    assert 2 !in [1];
  }

  /** Select-all as its checkbox presents it: clear when every filtered
      customer is selected, select them all otherwise. */
  function SelectAllIntended(sel: seq<int>, filtered: seq<Customer>): (r: seq<int>)
  {
    if |filtered| > 0 && forall c :: c in filtered ==> c.id in sel then [] else CustomerIds(filtered)
  }

  /** With the corrected rule, a press either selects every filtered
      customer or clears a selection that already held them all. */
  lemma SelectAllIntendedSelects(sel: seq<int>, filtered: seq<Customer>)
    ensures !AllSelected(sel, filtered) ==> AllSelected(SelectAllIntended(sel, filtered), filtered)
    ensures SelectAllIntended(sel, filtered) == [] ==> |filtered| == 0 || AllSelected(sel, filtered)
  {
    var ids := CustomerIds(filtered);
    forall c | c in filtered ensures c.id in ids {
      var k :| 0 <= k < |filtered| && filtered[k] == c;
      assert ids[k] == c.id;
    }
  }

  // ---- Gating -------------------------------------------------------------------

  /** Step 1's "Continuar" is enabled. */
  predicate CanCompose(sel: seq<int>) { |sel| > 0 }

  /** Step 2's "Continuar" is enabled. */
  predicate CanSchedule(d: CampaignData) { d.name != "" && d.message != "" }

  /** Step 3's send button is disabled. */
  predicate SubmitBlocked(d: CampaignData) {
    d.scheduleType == Later && (d.scheduledDate == "" || d.scheduledTime == "")
  }

  // ---- Creating a campaign ------------------------------------------------------

  /** `${date}T${time}:00` */
  function ScheduleStamp(date: string, time: string): string {
    date + "T" + time + ":00"
  }

  /** The record `handleCreateCampaign` builds from the form: numbered after
      the campaigns already listed, sent at once (all delivered) or
      scheduled for the stamp of the chosen date and time. */
  function NewCampaign(listed: nat, d: CampaignData, recipients: nat, now: string): Campaign {
    if d.scheduleType == Now then
      Campaign(listed + 1, d.name, d.message, Sent, recipients, None, Some(now), recipients, 0)
    else
      Campaign(listed + 1, d.name, d.message, Scheduled, recipients,
               Some(ScheduleStamp(d.scheduledDate, d.scheduledTime)), None, 0, 0)
  }

  /** Delivery counts add up: a sent campaign accounts for every recipient
      as delivered or failed; any other has neither. */
  predicate Accounted(c: Campaign) {
    if c.status == Sent then c.delivered + c.failed == c.recipients else c.delivered == 0 && c.failed == 0
  }

  function CampaignId(c: Campaign): int { c.id }

  /** Campaign ids are distinct and run from 1 to the number of campaigns. */
  ghost predicate Numbered(cs: seq<Campaign>) {
    && DistinctBy(cs, CampaignId)
    && (forall i :: 0 <= i < |cs| ==> 1 <= cs[i].id <= |cs|)
    && (forall i :: 0 <= i < |cs| ==> Accounted(cs[i]))
  }

  lemma DemoIsNumbered()
    ensures Numbered(DemoCampaigns)
  {
  }

  /** Putting a new campaign in front keeps the numbering and the counts. */
  lemma PrependKeepsNumbered(cs: seq<Campaign>, d: CampaignData, recipients: nat, now: string)
    requires Numbered(cs)
    ensures Numbered([NewCampaign(|cs|, d, recipients, now)] + cs)
  {
    var c := NewCampaign(|cs|, d, recipients, now);
    var r := [c] + cs;
    forall i, j | 0 <= i < j < |r| ensures CampaignId(r[i]) != CampaignId(r[j]) {
      assert r[j] == cs[j - 1];
      if i > 0 { assert r[i] == cs[i - 1]; }
    }
    forall i | 0 <= i < |r| ensures 1 <= r[i].id <= |r| && Accounted(r[i]) {
      if i > 0 { assert r[i] == cs[i - 1]; }
    }
  }

  // ---- Stats --------------------------------------------------------------------

  function HasStatus(s: Status): Campaign -> bool { (c: Campaign) => c.status == s }
  function Recipients(c: Campaign): int { c.recipients }

  /** "Campañas Enviadas" */
  function SentCount(cs: seq<Campaign>): (n: nat)
    ensures n <= |cs|
    ensures n == 0 <==> forall i :: 0 <= i < |cs| ==> cs[i].status != Sent
  {
    Count(cs, HasStatus(Sent))
  }

  /** "Programadas" */
  function ScheduledCount(cs: seq<Campaign>): (n: nat)
    ensures n <= |cs|
    ensures n == 0 <==> forall i :: 0 <= i < |cs| ==> cs[i].status != Scheduled
  {
    Count(cs, HasStatus(Scheduled))
  }

  /** "Mensajes Totales": the recipients of every campaign added up. */
  function TotalMessages(cs: seq<Campaign>): (n: int)
    ensures n == SumBy(cs, Recipients)
    ensures n >= 0
    ensures forall i :: 0 <= i < |cs| ==> cs[i].recipients <= n
  {
    if cs == [] then 0 else
      var rest := TotalMessages(cs[1..]);
      assert forall i :: 1 <= i < |cs| ==> cs[i] == cs[1..][i - 1];
      cs[0].recipients + rest
  }

  lemma {:induction false} SentAndScheduledAreDisjoint(cs: seq<Campaign>)
    ensures SentCount(cs) + ScheduledCount(cs) <= |cs|
  {
    if cs != [] {
      SentAndScheduledAreDisjoint(cs[1..]);
    }
  }

  /** Creating a campaign moves the stats by exactly that campaign: one more
      sent (or scheduled) campaign and its recipients added to the total. */
  lemma CreatingMovesStats(cs: seq<Campaign>, d: CampaignData, recipients: nat, now: string)
    ensures var r := [NewCampaign(|cs|, d, recipients, now)] + cs;
            && SentCount(r) == SentCount(cs) + (if d.scheduleType == Now then 1 else 0)
            && ScheduledCount(r) == ScheduledCount(cs) + (if d.scheduleType == Now then 0 else 1)
            && TotalMessages(r) == TotalMessages(cs) + recipients
  {
    var r := [NewCampaign(|cs|, d, recipients, now)] + cs;
    assert r[1..] == cs;
  }

  // ---- The page state -----------------------------------------------------------

  /** The page's state hooks. The form inputs (filters, name, message,
      schedule fields) are rendered only on their own step, so they are
      edited through the methods that require that step. */
  class CampaignWizard {
    var campaigns: seq<Campaign>
    var isCreateOpen: bool
    var step: int
    var selectedCustomers: seq<int>
    var filterTier: string
    var filterSegment: string
    var campaignData: CampaignData

    /** The wizard is on one of its three steps, a step is only reached with
        what the previous step demanded, and the listed campaigns are
        numbered and accounted. */
    ghost predicate Valid()
      reads this
    {
      && 1 <= step <= 3
      && (step >= 2 ==> CanCompose(selectedCustomers))
      && (step == 3 ==> CanSchedule(campaignData))
      && Numbered(campaigns)
    }

    constructor ()
      ensures Valid()
      ensures campaigns == DemoCampaigns && !isCreateOpen && step == 1 && selectedCustomers == []
      ensures filterTier == All && filterSegment == All && campaignData == BlankData
    {
      campaigns := DemoCampaigns;
      isCreateOpen := false;
      step := 1;
      selectedCustomers := [];
      filterTier := All;
      filterSegment := All;
      campaignData := BlankData;
      DemoIsNumbered();
    }

    /** `resetForm` */
    method ResetForm()
      requires Valid()
      modifies this`step, this`selectedCustomers, this`campaignData, this`filterTier, this`filterSegment
      ensures Valid()
      ensures step == 1 && selectedCustomers == [] && campaignData == BlankData
      ensures filterTier == All && filterSegment == All
    {
      step := 1;
      selectedCustomers := [];
      campaignData := BlankData;
      filterTier := All;
      filterSegment := All;
    }

    /** The dialog's `onOpenChange`: closing it also resets the form. */
    method SetOpen(open: bool)
      requires Valid()
      modifies this
      ensures Valid()
      ensures isCreateOpen == open && campaigns == old(campaigns)
      ensures !open ==> step == 1 && selectedCustomers == [] && campaignData == BlankData
                        && filterTier == All && filterSegment == All
      ensures open ==> step == old(step) && selectedCustomers == old(selectedCustomers)
                       && campaignData == old(campaignData)
                       && filterTier == old(filterTier) && filterSegment == old(filterSegment)
    {
      isCreateOpen := open;
      if !open {
        ResetForm();
      }
    }

    /** The tier and segment selects of step 1. */
    method SetFilters(tier: string, segment: string)
      requires Valid() && step == 1
      modifies this`filterTier, this`filterSegment
      ensures Valid()
      ensures filterTier == tier && filterSegment == segment
    {
      filterTier, filterSegment := tier, segment;
    }

    /** A click on a customer row of step 1. */
    method ToggleCustomer(id: int)
      requires Valid() && step == 1
      modifies this`selectedCustomers
      ensures Valid()
      ensures selectedCustomers == Toggled(old(selectedCustomers), id)
    {
      selectedCustomers := Toggled(selectedCustomers, id);
    }

    /** The header checkbox of step 1, over the customers the page has
        loaded, with the corrected rule of `SelectAllIntended`: a press
        selects every customer the filters let through unless they are all
        selected already. */
    method SelectAll(customers: seq<Customer>)
      requires Valid() && step == 1
      modifies this`selectedCustomers
      ensures Valid()
      ensures selectedCustomers == SelectAllIntended(old(selectedCustomers), FilteredCustomers(customers, filterTier, filterSegment))
      ensures !AllSelected(old(selectedCustomers), FilteredCustomers(customers, filterTier, filterSegment)) ==>
                AllSelected(selectedCustomers, FilteredCustomers(customers, filterTier, filterSegment))
    {
      var filtered := FilteredCustomers(customers, filterTier, filterSegment);
      SelectAllIntendedSelects(selectedCustomers, filtered);
      selectedCustomers := SelectAllIntended(selectedCustomers, filtered);
    }

    /** Step 1's "Continuar": does nothing while no customer is selected. */
    method GoToCompose()
      requires Valid() && step == 1
      modifies this`step
      ensures Valid()
      ensures step == if CanCompose(selectedCustomers) then 2 else 1
    {
      if CanCompose(selectedCustomers) {
        step := 2;
      }
    }

    /** The name and message inputs of step 2. */
    method EditMessage(name: string, message: string)
      requires Valid() && step == 2
      modifies this`campaignData
      ensures Valid()
      ensures campaignData == old(campaignData).(name := name, message := message)
    {
      campaignData := campaignData.(name := name, message := message);
    }

    /** Step 2's "Atrás". */
    method BackToRecipients()
      requires Valid() && step == 2
      modifies this`step
      ensures Valid() && step == 1
    {
      step := 1;
    }

    /** Step 2's "Continuar": does nothing while the name or the message is empty. */
    method GoToSchedule()
      requires Valid() && step == 2
      modifies this`step
      ensures Valid()
      ensures step == if CanSchedule(campaignData) then 3 else 2
    {
      if CanSchedule(campaignData) {
        step := 3;
      }
    }

    /** The schedule buttons and the date and time inputs of step 3. */
    method EditSchedule(kind: ScheduleType, date: string, time: string)
      requires Valid() && step == 3
      modifies this`campaignData
      ensures Valid()
      ensures campaignData == old(campaignData).(scheduleType := kind, scheduledDate := date, scheduledTime := time)
    {
      campaignData := campaignData.(scheduleType := kind, scheduledDate := date, scheduledTime := time);
    }

    /** Step 3's "Atrás". */
    method BackToCompose()
      requires Valid() && step == 3
      modifies this`step
      ensures Valid() && step == 2
    {
      step := 2;
    }

    /** `handleCreateCampaign`: the new campaign goes first, the dialog closes
        and the form is reset. `now` is the current time as an ISO string. */
    method HandleCreateCampaign(now: string)
      requires Valid()
      modifies this
      ensures Valid()
      ensures campaigns == [NewCampaign(|old(campaigns)|, old(campaignData), |old(selectedCustomers)|, now)] + old(campaigns)
      ensures !isCreateOpen && step == 1 && selectedCustomers == [] && campaignData == BlankData
      ensures filterTier == All && filterSegment == All
    {
      PrependKeepsNumbered(campaigns, campaignData, |selectedCustomers|, now);
      campaigns := [NewCampaign(|campaigns|, campaignData, |selectedCustomers|, now)] + campaigns;
      isCreateOpen := false;
      ResetForm();
    }

    /** Step 3's send button: does nothing while it is disabled. A campaign
        that gets through has recipients, a name and a message, and a
        scheduled one has its date and time. */
    method Submit(now: string) returns (created: bool)
      requires Valid() && step == 3
      modifies this
      ensures Valid()
      ensures created <==> !SubmitBlocked(old(campaignData))
      ensures !created ==> campaigns == old(campaigns) && step == 3 && campaignData == old(campaignData)
      ensures !created ==> selectedCustomers == old(selectedCustomers) && isCreateOpen == old(isCreateOpen)
      ensures !created ==> filterTier == old(filterTier) && filterSegment == old(filterSegment)
      ensures created ==> campaigns == [NewCampaign(|old(campaigns)|, old(campaignData), |old(selectedCustomers)|, now)] + old(campaigns)
      ensures created ==> !isCreateOpen && step == 1 && selectedCustomers == [] && campaignData == BlankData
      ensures created ==> filterTier == All && filterSegment == All
      ensures created ==> var c := campaigns[0];
                          && c.recipients > 0 && c.name != "" && c.message != ""
                          && (c.status == Scheduled <==> old(campaignData).scheduleType == Later)
                          && (c.status == Scheduled ==> old(campaignData).scheduledDate != "" && old(campaignData).scheduledTime != "")
    {
      if SubmitBlocked(campaignData) {
        return false;
      }
      HandleCreateCampaign(now);
      created := true;
    }
  }
}

=== FILE: ledger.dfy ===
/** The points ledger: how a wallet's transaction rows add up, the history
    query over them, and the relation between a wallet's cached balance and
    its rows. */
module Ledger {
  import opened Rows
  import opened Schema

  /** The signed effect of one row on its wallet: the store adds the amount
      for type 'credit' and subtracts it for every other type. */
  function Delta(t: WalletTransaction): (d: int)
    ensures t.kind == Credit ==> d == t.amount
    ensures t.kind != Credit ==> d == -t.amount
  {
    if t.kind == Credit then t.amount else -t.amount
  }

  /** The amount one row contributes to the credit sum (`credit`) or to the
      debit sum (`!credit`) of wallet `w`. */
  function Share(t: WalletTransaction, w: int, credit: bool): int {
    if t.walletId == w && (t.kind == Credit) == credit then t.amount else 0
  }

  /** Sum of the amounts of wallet `w`'s rows that are credits (`credit`) or
      that are anything else (`!credit`). */
  function SumOf(rows: seq<WalletTransaction>, w: int, credit: bool): int {
    if rows == [] then 0 else SumOf(rows[..|rows| - 1], w, credit) + Share(rows[|rows| - 1], w, credit)
  }

  function Credits(rows: seq<WalletTransaction>, w: int): int { SumOf(rows, w, true) }
  function Debits(rows: seq<WalletTransaction>, w: int): int { SumOf(rows, w, false) }

  /** Selects the rows of one wallet. */
  function OfWallet(w: int): WalletTransaction -> bool {
    (t: WalletTransaction) => t.walletId == w
  }

  /** getWalletTransactions: exactly the rows of wallet `w`, newest first. */
  function WalletHistory(rows: seq<WalletTransaction>, w: int): (r: seq<WalletTransaction>)
    requires IncreasingBy(rows, TransactionCreatedAt)
    ensures forall t :: t in r <==> t in rows && t.walletId == w
    ensures forall i, j :: 0 <= i < j < |r| ==> r[i].createdAt > r[j].createdAt
  {
    var r := NewestFirst(rows, OfWallet(w), TransactionCreatedAt);
    assert DecreasingBy(r, TransactionCreatedAt);
    r
  }

  /** A wallet's cached balance equals its seeded balance plus the credits
      minus the debits among the rows posted since it was created (rows
      `openedAt[id]..`). */
  ghost predicate Reconciles(w: Wallet, rows: seq<WalletTransaction>, seeded: map<int, int>, openedAt: map<int, nat>) {
    && w.id in seeded && w.id in openedAt && openedAt[w.id] <= |rows|
    && w.balancePuntos == seeded[w.id] + Credits(rows[openedAt[w.id]..], w.id) - Debits(rows[openedAt[w.id]..], w.id)
  }

  /** Every wallet of the table reconciles with the rows. */
  ghost predicate AllReconcile(ws: seq<Wallet>, rows: seq<WalletTransaction>, seeded: map<int, int>, openedAt: map<int, nat>) {
    forall w :: w in ws ==> Reconciles(w, rows, seeded, openedAt)
  }

  lemma {:induction false} SumOfAppend(a: seq<WalletTransaction>, b: seq<WalletTransaction>, w: int, credit: bool)
    ensures SumOf(a + b, w, credit) == SumOf(a, w, credit) + SumOf(b, w, credit)
  {
    if b != [] {
      var n := |b| - 1;
      assert (a + b)[..|a + b| - 1] == a + b[..n];
      SumOfAppend(a, b[..n], w, credit);
    } else {
      assert a + b == a;
    }
  }

  lemma {:induction false} SumOfOtherWallets(rows: seq<WalletTransaction>, w: int, credit: bool)
    requires forall i :: 0 <= i < |rows| ==> rows[i].walletId != w
    ensures SumOf(rows, w, credit) == 0
  {
    if rows != [] {
      SumOfOtherWallets(rows[..|rows| - 1], w, credit);
    }
  }

  lemma {:induction false} SumOfFilter(rows: seq<WalletTransaction>, w: int, credit: bool)
    ensures SumOf(Filter(rows, OfWallet(w)), w, credit) == SumOf(rows, w, credit)
  {
    if rows != [] {
      var x, rest := rows[0], rows[1..];
      assert rows == [x] + rest;
      SumOfAppend([x], rest, w, credit);
      SumOfFilter(rest, w, credit);
      if OfWallet(w)(x) {
        SumOfAppend([x], Filter(rest, OfWallet(w)), w, credit);
      } else {
        assert SumOf([x], w, credit) == 0 by { assert [x][..0] == []; }
      }
    }
  }

  lemma {:induction false} SumOfReverse(rows: seq<WalletTransaction>, w: int, credit: bool)
    ensures SumOf(Reverse(rows), w, credit) == SumOf(rows, w, credit)
  {
    if rows != [] {
      var x, rest := rows[0], rows[1..];
      assert rows == [x] + rest;
      SumOfReverse(rest, w, credit);
      SumOfAppend(Reverse(rest), [x], w, credit);
      SumOfAppend([x], rest, w, credit);
    }
  }

  /** The credit and debit sums do not depend on the order in which the rows
      were posted: any reordering of the same rows gives the same totals. */
  lemma {:induction false} SumOfPermutation(a: seq<WalletTransaction>, b: seq<WalletTransaction>, w: int, credit: bool)
    requires multiset(a) == multiset(b)
    ensures SumOf(a, w, credit) == SumOf(b, w, credit)
  {
    if a == [] {
      assert |b| == |multiset(b)| == 0;
    } else {
      var n := |a| - 1;
      var x := a[n];
      assert a == a[..n] + [x];
      assert x in multiset(b);
      var k :| 0 <= k < |b| && b[k] == x;
      RemovingOne(b, k);
      assert multiset(a[..n]) == multiset(a) - multiset{x};
      SumOfPermutation(a[..n], b[..k] + b[k + 1..], w, credit);
      SumWithoutOne(b, k, w, credit);
      SumOfAppend(a[..n], [x], w, credit);
    }
  }

  lemma RemovingOne(b: seq<WalletTransaction>, k: int)
    requires 0 <= k < |b|
    ensures multiset(b[..k] + b[k + 1..]) == multiset(b) - multiset{b[k]}
  {
    assert b == b[..k] + [b[k]] + b[k + 1..];
  }

  lemma SumWithoutOne(b: seq<WalletTransaction>, k: int, w: int, credit: bool)
    requires 0 <= k < |b|
    ensures SumOf(b, w, credit) == SumOf(b[..k] + b[k + 1..], w, credit) + SumOf([b[k]], w, credit)
  {
    assert b == b[..k] + [b[k]] + b[k + 1..];
    SumOfAppend(b[..k] + [b[k]], b[k + 1..], w, credit);
    SumOfAppend(b[..k], [b[k]], w, credit);
    SumOfAppend(b[..k], b[k + 1..], w, credit);
  }

  /** Appending one row keeps a wallet reconciled once its balance is moved
      by that row's delta when the row is its own, and left alone otherwise. */
  lemma PostingKeepsReconciled(w: Wallet, rows: seq<WalletTransaction>, t: WalletTransaction,
                               seeded: map<int, int>, openedAt: map<int, nat>)
    requires Reconciles(w, rows, seeded, openedAt)
    ensures Reconciles(w.(balancePuntos := w.balancePuntos + (if t.walletId == w.id then Delta(t) else 0)),
                       rows + [t], seeded, openedAt)
  {
    var m := openedAt[w.id];
    assert (rows + [t])[m..] == rows[m..] + [t];
    SumOfAppend(rows[m..], [t], w.id, true);
    SumOfAppend(rows[m..], [t], w.id, false);
    assert [t][..0] == [];
  }

  /** The row alone is not enough: once a non-zero row of a reconciled
      wallet is appended, the unchanged balance no longer reconciles, so the
      balance update that follows the insert is what restores the relation. */
  lemma PostingAloneBreaksReconciled(w: Wallet, rows: seq<WalletTransaction>, t: WalletTransaction,
                                     seeded: map<int, int>, openedAt: map<int, nat>)
    requires Reconciles(w, rows, seeded, openedAt)
    requires t.walletId == w.id && Delta(t) != 0
    ensures !Reconciles(w, rows + [t], seeded, openedAt)
  {
    var m := openedAt[w.id];
    assert (rows + [t])[m..] == rows[m..] + [t];
    SumOfAppend(rows[m..], [t], w.id, true);
    SumOfAppend(rows[m..], [t], w.id, false);
    assert [t][..0] == [];
  }

  /** A wallet just created has no rows, so its history adds up to nothing:
      the history alone accounts for its balance only when that balance is 0,
      as the opening balance is stored without a row. */
  lemma OpeningBalanceIsNotInLedger(w: Wallet, rows: seq<WalletTransaction>)
    requires IncreasingBy(rows, TransactionCreatedAt)
    requires forall i :: 0 <= i < |rows| ==> rows[i].walletId != w.id
    ensures WalletHistory(rows, w.id) == []
    ensures w.balancePuntos == Credits(WalletHistory(rows, w.id), w.id) - Debits(WalletHistory(rows, w.id), w.id)
            <==> w.balancePuntos == 0
  {
    var h := WalletHistory(rows, w.id);
    if h != [] {
      assert false;
    }
  }

  /** The round trip of the ledger: when no row was posted to a wallet's id
      before the wallet existed, its seeded balance plus the credits minus the
      debits of the history the store returns for it is its current balance. */
  lemma HistoryReconstructsBalance(w: Wallet, rows: seq<WalletTransaction>, seeded: map<int, int>, openedAt: map<int, nat>)
    requires IncreasingBy(rows, TransactionCreatedAt)
    requires Reconciles(w, rows, seeded, openedAt)
    requires forall i :: 0 <= i < openedAt[w.id] ==> rows[i].walletId != w.id
    ensures w.balancePuntos == seeded[w.id] + Credits(WalletHistory(rows, w.id), w.id) - Debits(WalletHistory(rows, w.id), w.id)
  {
    var m := openedAt[w.id];
    assert rows == rows[..m] + rows[m..];
    assert WalletHistory(rows, w.id) == Reverse(Filter(rows, OfWallet(w.id)));
    forall credit: bool
      ensures SumOf(WalletHistory(rows, w.id), w.id, credit) == SumOf(rows[m..], w.id, credit)
    {
      SumOfAppend(rows[..m], rows[m..], w.id, credit);
      SumOfOtherWallets(rows[..m], w.id, credit);
      SumOfReverse(Filter(rows, OfWallet(w.id)), w.id, credit);
      SumOfFilter(rows, w.id, credit);
    }
  }
}

=== FILE: queries.dfy ===
/** The store's read queries (`get*` in server/storage.ts) as functions of the
    table contents. Tables are held in insertion order, so ids and creation
    timestamps increase along them; ORDER BY ... DESC reads them back to front. */
module Queries {
  import opened Rows
  import opened Schema
  import Ledger

  function HasCustomerId(id: int): Customer -> bool { (c: Customer) => c.id == id }
  function OfCustomer(id: int): Activity -> bool { (a: Activity) => a.customerId == id }
  function IsSeated(): TableSession -> bool { (s: TableSession) => s.status == "seated" }

  /** getCustomers: every customer, highest id first. */
  function GetCustomers(cs: seq<Customer>): (r: seq<Customer>)
    requires IncreasingBy(cs, CustomerId)
    ensures |r| == |cs| && forall c :: c in r <==> c in cs
    ensures forall i, j :: 0 <= i < j < |r| ==> r[i].id > r[j].id
  {
    ReverseOfIncreasing(cs, CustomerId);
    var r := Reverse(cs);
    assert forall c :: c in r <==> c in cs by {
      forall c ensures c in r <==> c in cs {
        if c in r { var i :| 0 <= i < |r| && r[i] == c; assert cs[|cs| - 1 - i] == c; }
        if c in cs { var i :| 0 <= i < |cs| && cs[i] == c; assert r[|cs| - 1 - i] == c; }
      }
    }
    r
  }

  /** getCustomer: the customer with that id, or nothing. */
  function GetCustomer(cs: seq<Customer>, id: int): (r: Option<Customer>)
    ensures r.Some? ==> r.value in cs && r.value.id == id
    ensures r.None? <==> forall c :: c in cs ==> c.id != id
  {
    First(cs, HasCustomerId(id))
  }

  /** getActivities(limit): the `limit` most recent activities, newest first. */
  function GetActivities(acts: seq<Activity>, limit: nat): (r: seq<Activity>)
    requires IncreasingBy(acts, ActivityCreatedAt)
    ensures |r| == if limit < |acts| then limit else |acts|
    ensures forall a :: a in r ==> a in acts
    ensures forall i, j :: 0 <= i < j < |r| ==> r[i].createdAt > r[j].createdAt
    ensures forall i, j :: 0 <= i < |r| && 0 <= j < |acts| - |r| ==> r[i].createdAt > acts[j].createdAt
  {
    ReverseOfIncreasing(acts, ActivityCreatedAt);
    var all := Reverse(acts);
    var r := Take(all, limit);
    assert forall i :: 0 <= i < |r| ==> r[i] == acts[|acts| - 1 - i];
    r
  }

  /** getCustomerActivities: that customer's activities, newest first. */
  function GetCustomerActivities(acts: seq<Activity>, customerId: int): (r: seq<Activity>)
    requires IncreasingBy(acts, ActivityCreatedAt)
    ensures forall a :: a in r <==> a in acts && a.customerId == customerId
    ensures forall i, j :: 0 <= i < j < |r| ==> r[i].createdAt > r[j].createdAt
  {
    var r := NewestFirst(acts, OfCustomer(customerId), ActivityCreatedAt);
    assert DecreasingBy(r, ActivityCreatedAt);
    r
  }

  function TierThreshold(t: Tier): int { t.thresholdCents }

  /** getTiers: every tier, by ascending threshold (ties in any order). */
  function GetTiers(ts: seq<Tier>): (r: seq<Tier>)
    ensures forall i, j :: 0 <= i < j < |r| ==> r[i].thresholdCents <= r[j].thresholdCents
    ensures multiset(r) == multiset(ts)
  {
    var r := SortBy(ts, TierThreshold);
    assert NondecreasingBy(r, TierThreshold);
    r
  }

  function HasTableId(id: int): RestaurantTable -> bool { (t: RestaurantTable) => t.id == id }

  /** getTable: the table with that id, or nothing. */
  function GetTable(ts: seq<RestaurantTable>, id: int): (r: Option<RestaurantTable>)
    ensures r.Some? ==> r.value in ts && r.value.id == id
    ensures r.None? <==> forall t :: t in ts ==> t.id != id
  {
    First(ts, HasTableId(id))
  }

  /** getTableSessions(activeOnly): the seated sessions when `activeOnly`,
      every session otherwise, latest start first. */
  function GetTableSessions(ss: seq<TableSession>, activeOnly: bool): (r: seq<TableSession>)
    requires IncreasingBy(ss, SessionStartedAt)
    ensures forall s :: s in r <==> s in ss && (activeOnly ==> s.status == "seated")
    ensures forall i, j :: 0 <= i < j < |r| ==> r[i].startedAt > r[j].startedAt
  {
    var r := if activeOnly then NewestFirst(ss, IsSeated(), SessionStartedAt)
             else NewestFirst(ss, (s: TableSession) => true, SessionStartedAt);
    assert DecreasingBy(r, SessionStartedAt);
    r
  }

  /** getFeedback: every feedback row, newest first. */
  function GetFeedback(fs: seq<Feedback>): (r: seq<Feedback>)
    requires IncreasingBy(fs, FeedbackCreatedAt)
    ensures |r| == |fs|
    ensures forall i :: 0 <= i < |fs| ==> r[i] == fs[|fs| - 1 - i]
    ensures forall i, j :: 0 <= i < j < |r| ==> r[i].createdAt > r[j].createdAt
  {
    ReverseOfIncreasing(fs, FeedbackCreatedAt);
    Reverse(fs)
  }

  /** getWallets: every wallet, highest id first. */
  function GetWallets(ws: seq<Wallet>): (r: seq<Wallet>)
    requires IncreasingBy(ws, WalletId)
    ensures |r| == |ws|
    ensures forall i :: 0 <= i < |ws| ==> r[i] == ws[|ws| - 1 - i]
    ensures forall i, j :: 0 <= i < j < |r| ==> r[i].id > r[j].id
  {
    ReverseOfIncreasing(ws, WalletId);
    Reverse(ws)
  }

  function HasWalletId(id: int): Wallet -> bool { (w: Wallet) => w.id == id }
  function OfWalletCustomer(id: int): Wallet -> bool { (w: Wallet) => w.customerId == id }

  /** getWallet: the wallet with that id, or nothing. */
  function GetWallet(ws: seq<Wallet>, id: int): (r: Option<Wallet>)
    ensures r.Some? ==> r.value in ws && r.value.id == id
    ensures r.None? <==> forall w :: w in ws ==> w.id != id
  {
    First(ws, HasWalletId(id))
  }

  /** getWalletByCustomerId: a wallet of that customer (the first stored one
      when, with no unique constraint, there are several), or nothing. */
  function GetWalletByCustomerId(ws: seq<Wallet>, customerId: int): (r: Option<Wallet>)
    ensures r.Some? ==> r.value in ws && r.value.customerId == customerId
    ensures r.None? <==> forall w :: w in ws ==> w.customerId != customerId
  {
    First(ws, OfWalletCustomer(customerId))
  }

  /** getWalletTransactions: exactly that wallet's rows, newest first. */
  function GetWalletTransactions(rows: seq<WalletTransaction>, walletId: int): (r: seq<WalletTransaction>)
    requires IncreasingBy(rows, TransactionCreatedAt)
    ensures forall t :: t in r <==> t in rows && t.walletId == walletId
    ensures forall i, j :: 0 <= i < j < |r| ==> r[i].createdAt > r[j].createdAt
  {
    Ledger.WalletHistory(rows, walletId)
  }
}

=== FILE: routes.dfy ===
/** The HTTP handlers of server/routes.ts as functions from what a request
    carries (the path parameter, the query string, the body after schema
    validation) and what the store answers to the reply the handler sends.
    A store call that throws is `Failed`; the schema parse is a parameter
    because its field rules live in the shared schema. */
module Routes {
  import opened Rows
  import opened Schema
  import opened Queries

  /** The outcome of an awaited store call: its value, or a thrown error. */
  datatype Attempt<T> = Done(value: T) | Failed

  /** The outcome of `schema.parse(body)`: the payload, or a ZodError's issues. */
  datatype Parsed<T> = Parsed(value: T) | SchemaError(issues: seq<string>)

  /** What a handler sends: a status code and its body. */
  datatype Reply<T> =
    | Ok(value: T)                    // 200, res.json(value)
    | Created(value: T)               // 201
    | NoContent                       // 204
    | BadRequest(errors: seq<string>) // 400
    | NotFound(error: string)         // 404
    | ServerError(error: string)      // 500
  {
    function Status(): int {
      match this
      case Ok(_) => 200
      case Created(_) => 201
      case NoContent => 204
      case BadRequest(_) => 400
      case NotFound(_) => 404
      case ServerError(_) => 500
    }
  }

  /** The error texts of one resource's handlers. */
  datatype Messages = Messages(invalidId: string, notFound: string, failed: string)

  // ---- Path ids: `z.coerce.number().int().positive()` ---------------------------------

  predicate IsDigit(c: char) { '0' <= c <= '9' }

  predicate AllDigits(s: string) { forall i :: 0 <= i < |s| ==> IsDigit(s[i]) }

  function DigitValue(c: char): nat
    requires IsDigit(c)
  {
    c as int - '0' as int
  }

  /** The number a string of decimal digits spells, most significant first. */
  function DigitsValue(s: string): nat
    requires AllDigits(s)
  {
    if s == [] then 0 else 10 * DigitsValue(s[..|s| - 1]) + DigitValue(s[|s| - 1])
  }

  /** `n` written in decimal, without leading zeros. */
  function Decimal(n: nat): (r: string)
    ensures |r| >= 1 && AllDigits(r)
  {
    if n < 10 then [('0' as int + n) as char] else Decimal(n / 10) + [('0' as int + n % 10) as char]
  }

  /** The least value a decimal string can spell and still turn into
      `Infinity` under JavaScript's `Number` and `parseInt`: 2^1024 − 2^970,
      half-way between the largest double (2^1024 − 2^971) and 2^1024, where
      rounding to even goes up. */
  const Overflow: nat := 179769313486231580793728971405303415079934132710037826936173778980444968292764750946649017977587207096330286416692887910946555547851940402630657488671505820681908902000708383676273854845817711531764475730270069855571366959622842914819860834936475292719074168444365510704342711559699508093042880177904174497792

  /** A path id: a non-empty string of decimal digits whose value is at
      least 1 and finite as a JavaScript number (`.int()` refuses
      `Infinity`); anything else is refused. */
  function ParseId(raw: string): (r: Option<nat>)
    ensures r.Some? ==> 1 <= r.value < Overflow && AllDigits(raw) && DigitsValue(raw) == r.value
    ensures r.None? <==> !AllDigits(raw) || raw == [] || DigitsValue(raw) == 0 || DigitsValue(raw) >= Overflow
  {
    if raw != [] && AllDigits(raw) && 1 <= DigitsValue(raw) < Overflow then Some(DigitsValue(raw)) else None
  }

  lemma {:induction false} DecimalValue(n: nat)
    ensures DigitsValue(Decimal(n)) == n
  {
    if n >= 10 {
      DecimalValue(n / 10);
      var d := Decimal(n);
      assert d[..|d| - 1] == Decimal(n / 10);
    }
  }

  /** Every positive id below the overflow, written in decimal, is accepted
      as itself. */
  lemma ParseIdOfDecimal(n: nat)
    requires 1 <= n < Overflow
    ensures ParseId(Decimal(n)) == Some(n)
  {
    DecimalValue(n);
  }

  /** An id so large that it becomes `Infinity` is refused. */
  lemma HugeIdIsRefused(n: nat)
    requires n >= Overflow
    ensures ParseId(Decimal(n)).None?
  {
    DecimalValue(n);
  }

  /** Zero, written with any number of digits, is refused. */
  lemma {:induction false} ZerosAreRefused(k: nat)
    ensures ParseId(seq(k, _ => '0')).None?
  {
    if k > 0 {
      ZerosAreRefused(k - 1);
      var z := seq(k, _ => '0');
      assert z[..k - 1] == seq(k - 1, _ => '0');
    }
  }

  // ---- The activities `limit` query parameter ------------------------------------

  /** The characters `parseInt` skips at the start: JavaScript's white space
      (tab, vertical tab, form feed, U+FEFF and every Unicode space
      separator) and its line terminators. */
  predicate IsSpace(c: char) {
    || c == '\t' || c == '\n' || c == '\U{000B}' || c == '\U{000C}' || c == '\r' || c == ' '
    || c == '\U{00A0}' || c == '\U{1680}' || '\U{2000}' <= c <= '\U{200A}'
    || c == '\U{2028}' || c == '\U{2029}' || c == '\U{202F}' || c == '\U{205F}' || c == '\U{3000}'
    || c == '\U{FEFF}'
  }

  function TrimStart(s: string): (r: string)
    ensures |r| <= |s| && r == s[|s| - |r|..]
    ensures r == [] || !IsSpace(r[0])
  {
    if s != [] && IsSpace(s[0]) then TrimStart(s[1..]) else s
  }

  /** The longest run of digits at the start of `s`. */
  function DigitPrefix(s: string): (r: string)
    ensures r <= s && AllDigits(r)
    ensures |r| == |s| || !IsDigit(s[|r|])
  {
    if s != [] && IsDigit(s[0]) then [s[0]] + DigitPrefix(s[1..]) else []
  }

  /** `parseInt(s, 10)`: leading white space, an optional sign, then as many
      digits as there are; `None` (NaN) when no digit follows. */
  function ParseIntPrefix(s: string): (r: Option<int>)
  {
    ParseSigned(TrimStart(s))
  }

  /** What `parseInt` reads once the white space is skipped: one optional
      sign, then the digits. */
  function ParseSigned(t: string): Option<int> {
    var negative := t != [] && t[0] == '-';
    var body := if t != [] && (t[0] == '+' || t[0] == '-') then t[1..] else t;
    var digits := DigitPrefix(body);
    if digits == [] then None
    else
      var v: int := DigitsValue(digits);
      Some(if negative then -v else v)
  }

  /** White space in front of the number changes nothing `parseInt` reads. */
  lemma ParseSkipsLeadingSpace(c: char, s: string)
    requires IsSpace(c)
    ensures ParseIntPrefix([c] + s) == ParseIntPrefix(s)
  {
    assert ([c] + s)[1..] == s;
    assert TrimStart([c] + s) == TrimStart(s);
  }

  /** The limit of GET /api/activities: 10 when the parameter is absent or
      empty, the parsed value when it is finite and at least 1, `None` (a
      400) otherwise. */
  function Limit(param: Option<string>): (r: Option<nat>)
    ensures param.None? || param == Some("") ==> r == Some(10)
    ensures r.Some? ==> 1 <= r.value < Overflow
    ensures param.Some? && param.value != "" ==>
      (r.None? <==> ParseIntPrefix(param.value).None? || ParseIntPrefix(param.value).value < 1
                    || ParseIntPrefix(param.value).value >= Overflow)
    ensures param.Some? && param.value != "" && r.Some? ==> ParseIntPrefix(param.value) == Some(r.value as int)
  {
    if param.None? || param.value == "" then Some(10)
    else
      var parsed := ParseIntPrefix(param.value);
      if parsed.None? || parsed.value < 1 || parsed.value >= Overflow then None else Some(parsed.value)
  }

  /** A positive limit written in decimal is taken as itself. */
  lemma LimitOfDecimal(n: nat)
    requires 1 <= n < Overflow
    ensures Limit(Some(Decimal(n))) == Some(n)
  {
    var d := Decimal(n);
    DecimalValue(n);
    ParseDigits(d);
  }

  /** `parseInt` of a non-empty digit string reads its value. */
  lemma ParseDigits(d: string)
    requires d != [] && AllDigits(d)
    ensures ParseIntPrefix(d) == Some(DigitsValue(d))
  {
    ParseDigitsThenText(d, []);
    assert d + [] == d;
  }

  /** Digits followed by anything else count for what the digits say
      (`"25rows"` is 25). */
  lemma {:induction false} LimitIgnoresTrailingText(n: nat, tail: string)
    requires 1 <= n < Overflow
    requires tail == [] || !IsDigit(tail[0])
    ensures Limit(Some(Decimal(n) + tail)) == Some(n)
  {
    DecimalValue(n);
    ParseDigitsThenText(Decimal(n), tail);
  }

  /** `parseInt` of digits followed by a non-digit reads the digits' value. */
  lemma ParseDigitsThenText(d: string, tail: string)
    requires d != [] && AllDigits(d)
    requires tail == [] || !IsDigit(tail[0])
    ensures ParseIntPrefix(d + tail) == Some(DigitsValue(d))
  {
    var s := d + tail;
    assert s[0] == d[0];
    ParseDigitStart(s);
    DigitPrefixAppend(d, tail);
  }

  /** `parseInt` of a string that starts with a digit reads its leading digits. */
  lemma ParseDigitStart(s: string)
    requires s != [] && IsDigit(s[0])
    ensures ParseIntPrefix(s) == Some(DigitsValue(DigitPrefix(s)))
  {
    TrimDigitStart(s);
    SignedDigitStart(s);
  }

  lemma TrimDigitStart(s: string)
    requires s != [] && IsDigit(s[0])
    ensures TrimStart(s) == s
  {
    DigitIsNotSpaceOrSign(s[0]);
  }

  lemma SignedDigitStart(t: string)
    requires t != [] && IsDigit(t[0])
    ensures ParseSigned(t) == Some(DigitsValue(DigitPrefix(t)))
  {
    DigitIsNotSpaceOrSign(t[0]);
  }

  lemma DigitIsNotSpaceOrSign(c: char)
    requires IsDigit(c)
    ensures !IsSpace(c) && c != '+' && c != '-'
  {
  }

  lemma {:induction false} DigitPrefixAppend(d: string, tail: string)
    requires AllDigits(d)
    requires tail == [] || !IsDigit(tail[0])
    ensures DigitPrefix(d + tail) == d
  {
    if d != [] {
      assert (d + tail)[1..] == d[1..] + tail;
      DigitPrefixAppend(d[1..], tail);
    } else {
      assert d + tail == tail;
    }
  }

  // ---- Handlers ----------------------------------------------------------------------

  /** GET by id (customers, wallets): 400 on a bad id without asking the
      store, then 500 if the store throws, 404 when it finds nothing, 200
      with the row otherwise. */
  function ReadById<T>(raw: string, lookup: nat -> Attempt<Option<T>>, m: Messages): (r: Reply<T>)
    ensures ParseId(raw).None? ==> r == BadRequest([m.invalidId])
    ensures r.Status() == 400 <==> ParseId(raw).None?
    ensures r.Status() == 500 <==> ParseId(raw).Some? && lookup(ParseId(raw).value).Failed?
    ensures r.Status() == 404 <==> ParseId(raw).Some? && lookup(ParseId(raw).value) == Done(None)
    ensures r.Ok? <==> ParseId(raw).Some? && lookup(ParseId(raw).value).Done? && lookup(ParseId(raw).value).value.Some?
    ensures r.Ok? ==> lookup(ParseId(raw).value) == Done(Some(r.value))
  {
    match ParseId(raw)
    case None => BadRequest([m.invalidId])
    case Some(id) =>
      match lookup(id)
      case Failed => ServerError(m.failed)
      case Done(None) => NotFound(m.notFound)
      case Done(Some(x)) => Ok(x)
  }

  /** GET /api/wallets/customer/:customerId: a missing wallet is a 200 with
      `null`, never a 404. */
  function ReadWalletOfCustomer(raw: string, lookup: nat -> Attempt<Option<Wallet>>): (r: Reply<Option<Wallet>>)
    ensures ParseId(raw).None? ==> r == BadRequest(["Invalid customer ID"])
    ensures r.Status() != 404
    ensures r.Status() == 500 <==> ParseId(raw).Some? && lookup(ParseId(raw).value).Failed?
    ensures r.Ok? <==> ParseId(raw).Some? && lookup(ParseId(raw).value).Done?
    ensures r.Ok? ==> lookup(ParseId(raw).value) == Done(r.value)
  {
    match ParseId(raw)
    case None => BadRequest(["Invalid customer ID"])
    case Some(id) =>
      match lookup(id)
      case Failed => ServerError("Failed to fetch wallet")
      case Done(w) => Ok(w)
  }

  /** GET of a list (activities with a limit, sessions, a wallet's
      transactions, ...): 200 with the rows, or 500. */
  function ReadList<T>(fetched: Attempt<T>, failed: string): (r: Reply<T>)
    ensures r.Ok? <==> fetched.Done?
    ensures r.Ok? ==> r.value == fetched.value
    ensures r.Status() == 500 <==> fetched.Failed?
  {
    match fetched
    case Done(rows) => Ok(rows)
    case Failed => ServerError(failed)
  }

  /** GET /api/activities. */
  function ReadActivities(param: Option<string>, fetch: nat -> Attempt<seq<Activity>>): (r: Reply<seq<Activity>>)
    ensures r.Status() == 400 <==> Limit(param).None?
    ensures Limit(param).None? ==> r == BadRequest(["Invalid limit parameter"])
    ensures Limit(param).Some? ==> r == ReadList(fetch(Limit(param).value), "Failed to fetch activities")
    ensures param.None? ==> r == ReadList(fetch(10), "Failed to fetch activities")
  {
    match Limit(param)
    case None => BadRequest(["Invalid limit parameter"])
    case Some(limit) => ReadList(fetch(limit), "Failed to fetch activities")
  }

  /** GET /api/table-sessions: active-only exactly for `?active=true`. */
  function ActiveOnly(active: Option<string>): (r: bool)
    ensures r <==> active == Some("true")
  {
    active == Some("true")
  }

  /** GET /api/table-sessions: the store's `getTableSessions` over the stored
      sessions, active-only exactly for `?active=true`. */
  function ReadTableSessions(active: Option<string>, stored: Attempt<seq<TableSession>>): (r: Reply<seq<TableSession>>)
    requires stored.Done? ==> IncreasingBy(stored.value, SessionStartedAt)
    ensures r.Ok? <==> stored.Done?
    ensures r.Status() == 500 <==> stored.Failed?
    ensures r.Ok? ==> forall s :: s in r.value <==> s in stored.value && (active == Some("true") ==> s.status == "seated")
    ensures r.Ok? ==> forall i, j :: 0 <= i < j < |r.value| ==> r.value[i].startedAt > r.value[j].startedAt
  {
    match stored
    case Failed => ServerError("Failed to fetch table sessions")
    case Done(ss) => ReadList(Done(GetTableSessions(ss, ActiveOnly(active))), "Failed to fetch table sessions")
  }

  /** Only the exact text "true" filters: "1", "TRUE" or no value at all
      list every session. */
  lemma OnlyTrueFiltersSessions(ss: seq<TableSession>)
    requires IncreasingBy(ss, SessionStartedAt)
    ensures forall v :: v in ["1", "TRUE", "yes"] ==> ReadTableSessions(Some(v), Done(ss)) == ReadTableSessions(None, Done(ss))
    ensures forall s :: s in ss ==> s in ReadTableSessions(None, Done(ss)).value
  {
  }

  /** GET /api/wallets/:walletId/transactions. */
  function ReadTransactions(raw: string, fetch: nat -> Attempt<seq<WalletTransaction>>): (r: Reply<seq<WalletTransaction>>)
    ensures ParseId(raw).None? ==> r == BadRequest(["Invalid wallet ID"])
    ensures ParseId(raw).Some? ==> r == ReadList(fetch(ParseId(raw).value), "Failed to fetch transactions")
  {
    match ParseId(raw)
    case None => BadRequest(["Invalid wallet ID"])
    case Some(id) => ReadList(fetch(id), "Failed to fetch transactions")
  }

  /** POST (every create handler): 400 with the schema issues, 500 when the
      store throws, 201 with the stored row. */
  function CreateFrom<P, T>(body: Parsed<P>, create: P -> Attempt<T>, failed: string): (r: Reply<T>)
    ensures body.SchemaError? ==> r == BadRequest(body.issues)
    ensures r.Status() == 400 <==> body.SchemaError?
    ensures r.Status() == 500 <==> body.Parsed? && create(body.value).Failed?
    ensures r.Created? <==> body.Parsed? && create(body.value).Done?
    ensures r.Created? ==> create(body.value) == Done(r.value)
    ensures r.Status() in {201, 400, 500}
  {
    match body
    case SchemaError(issues) => BadRequest(issues)
    case Parsed(p) =>
      match create(p)
      case Failed => ServerError(failed)
      case Done(row) => Created(row)
  }

  /** PATCH with a validated partial body (customers, tiers, tables): the
      id is checked before the body; then 400 for the body, 500, 404, 200. */
  function PatchById<P, T>(raw: string, body: Parsed<P>, update: (nat, P) -> Attempt<Option<T>>, m: Messages): (r: Reply<T>)
    ensures ParseId(raw).None? ==> r == BadRequest([m.invalidId])
    ensures ParseId(raw).Some? && body.SchemaError? ==> r == BadRequest(body.issues)
    ensures r.Status() == 400 <==> ParseId(raw).None? || body.SchemaError?
    ensures r.Status() == 500 <==> ParseId(raw).Some? && body.Parsed? && update(ParseId(raw).value, body.value).Failed?
    ensures r.Status() == 404 <==> ParseId(raw).Some? && body.Parsed? && update(ParseId(raw).value, body.value) == Done(None)
    ensures r.Ok? ==> ParseId(raw).Some? && body.Parsed? && update(ParseId(raw).value, body.value) == Done(Some(r.value))
  {
    match ParseId(raw)
    case None => BadRequest([m.invalidId])
    case Some(id) =>
      match body
      case SchemaError(issues) => BadRequest(issues)
      case Parsed(p) =>
        match update(id, p)
        case Failed => ServerError(m.failed)
        case Done(None) => NotFound(m.notFound)
        case Done(Some(row)) => Ok(row)
  }

  /** PATCH /api/table-sessions/:id: the body goes to the store unchecked,
      so apart from the id nothing is a 400; every failure is a 500. */
  function PatchSessionById(raw: string, body: SessionPatch, update: (nat, SessionPatch) -> Attempt<Option<TableSession>>): (r: Reply<TableSession>)
    ensures r.Status() == 400 <==> ParseId(raw).None?
    ensures r.Status() == 500 <==> ParseId(raw).Some? && update(ParseId(raw).value, body).Failed?
    ensures r.Status() == 404 <==> ParseId(raw).Some? && update(ParseId(raw).value, body) == Done(None)
    ensures r.Ok? ==> ParseId(raw).Some? && update(ParseId(raw).value, body) == Done(Some(r.value))
  {
    match ParseId(raw)
    case None => BadRequest(["Invalid session ID"])
    case Some(id) =>
      match update(id, body)
      case Failed => ServerError("Failed to update table session")
      case Done(None) => NotFound("Session not found")
      case Done(Some(s)) => Ok(s)
  }

  /** DELETE (customers, tables): 400, 500, 404 when nothing was removed,
      204 when a row was. */
  function DeleteById(raw: string, delete: nat -> Attempt<bool>, m: Messages): (r: Reply<()>)
    ensures ParseId(raw).None? ==> r == BadRequest([m.invalidId])
    ensures r.Status() == 400 <==> ParseId(raw).None?
    ensures r.Status() == 204 <==> ParseId(raw).Some? && delete(ParseId(raw).value) == Done(true)
    ensures r.Status() == 404 <==> ParseId(raw).Some? && delete(ParseId(raw).value) == Done(false)
    ensures r.Status() == 500 <==> ParseId(raw).Some? && delete(ParseId(raw).value).Failed?
  {
    match ParseId(raw)
    case None => BadRequest([m.invalidId])
    case Some(id) =>
      match delete(id)
      case Failed => ServerError(m.failed)
      case Done(false) => NotFound(m.notFound)
      case Done(true) => NoContent
  }

  /** A JSON value as far as the handlers look into one. */
  datatype Json = JNull | JBool(b: bool) | JNum(n: int) | JStr(s: string) | JList(items: seq<Json>) | JObject(fields: map<string, Json>)

  /** POST /api/wallets/:walletId/transactions: the body is validated with
      its `walletId` replaced by the path id. */
  function CreateTransaction(raw: string, body: map<string, Json>,
                             validate: map<string, Json> -> Parsed<NewWalletTransaction>,
                             create: NewWalletTransaction -> Attempt<WalletTransaction>): (r: Reply<WalletTransaction>)
    ensures ParseId(raw).None? ==> r == BadRequest(["Invalid wallet ID"])
    ensures ParseId(raw).Some? ==>
      r == CreateFrom(validate(body["walletId" := JNum(ParseId(raw).value)]), create, "Failed to create transaction")
  {
    match ParseId(raw)
    case None => BadRequest(["Invalid wallet ID"])
    case Some(id) => CreateFrom(validate(body["walletId" := JNum(id)]), create, "Failed to create transaction")
  }

  /** Whatever `walletId` the body carries, or none at all, the reply is the
      same: the path decides the wallet. */
  lemma BodyWalletIdIsIgnored(raw: string, body: map<string, Json>, v: Json,
                              validate: map<string, Json> -> Parsed<NewWalletTransaction>,
                              create: NewWalletTransaction -> Attempt<WalletTransaction>)
    ensures CreateTransaction(raw, body["walletId" := v], validate, create) == CreateTransaction(raw, body, validate, create)
    ensures CreateTransaction(raw, body - {"walletId"}, validate, create) == CreateTransaction(raw, body, validate, create)
  {
    if ParseId(raw).Some? {
      var path := JNum(ParseId(raw).value);
      assert body["walletId" := v]["walletId" := path] == body["walletId" := path];
      assert (body - {"walletId"})["walletId" := path] == body["walletId" := path];
    }
  }

  /** A 201 carries a row of the wallet named in the path, whatever the body
      said, when the schema takes a numeric `walletId` as it is given and the
      store keeps the payload's wallet (as `createWalletTransaction` does). */
  lemma CreatedTransactionNamesPathWallet(raw: string, body: map<string, Json>,
                                          validate: map<string, Json> -> Parsed<NewWalletTransaction>,
                                          create: NewWalletTransaction -> Attempt<WalletTransaction>)
    requires forall b: map<string, Json> :: "walletId" in b && b["walletId"].JNum? && validate(b).Parsed? ==> validate(b).value.walletId == b["walletId"].n
    requires forall p :: create(p).Done? ==> create(p).value.walletId == p.walletId
    ensures var r := CreateTransaction(raw, body, validate, create);
            r.Created? ==> ParseId(raw).Some? && r.value.walletId == ParseId(raw).value
  {
    if ParseId(raw).Some? {
      var b := body["walletId" := JNum(ParseId(raw).value)];
      assert "walletId" in b && b["walletId"] == JNum(ParseId(raw).value);
    }
  }

  // ---- Handlers over the store's queries ---------------------------------------------

  const CustomerMessages := Messages("Invalid customer ID", "Customer not found", "Failed to fetch customer")

  /** The largest value of a Postgres `integer` column, the type of every
      serial id. */
  const Int4Max := 0x7FFF_FFFF

  /** `storage.getCustomer` against the customers table. The id is compared
      with an `integer` column, and Postgres throws on a value outside that
      type's range, so an id above `Int4Max` is an error rather than a miss. */
  function FetchCustomer(cs: seq<Customer>): nat -> Attempt<Option<Customer>> {
    (id: nat) => if id > Int4Max then Failed else Done(GetCustomer(cs, id))
  }

  /** GET /api/customers/:id against the customers table: a stored customer,
      addressed by its id in decimal, is served as it is stored (a stored
      serial id lies in 1..Int4Max). */
  lemma StoredCustomerIsServed(cs: seq<Customer>, c: Customer)
    requires IncreasingBy(cs, CustomerId)
    requires c in cs && 1 <= c.id <= Int4Max
    ensures ReadById(Decimal(c.id), FetchCustomer(cs), CustomerMessages) == Ok(c)
  {
    ParseIdOfDecimal(c.id);
    var found := GetCustomer(cs, c.id);
    var k :| 0 <= k < |cs| && cs[k] == c;
    assert found.Some?;
  }

  /** GET /api/customers/:id for an id no customer has is a 404 while the id
      fits an `integer`, a 500 beyond that, where the query itself fails, and
      a 400 once the id is too large to be a finite number. */
  lemma MissingCustomerIsNotFound(cs: seq<Customer>, n: nat)
    requires n >= 1
    requires forall c :: c in cs ==> c.id != n
    ensures ReadById(Decimal(n), FetchCustomer(cs), CustomerMessages)
            == if n <= Int4Max then NotFound("Customer not found")
               else if n < Overflow then ServerError("Failed to fetch customer")
               else BadRequest(["Invalid customer ID"])
  {
    DecimalValue(n);
  }
}

=== FILE: rows.dfy ===
/** Generic helpers over rows held in insertion order: the shapes that the
    store's SELECT statements take (WHERE as a filter, ORDER BY ... DESC over
    rows kept ascending as a reversal, LIMIT as a prefix, `const [row] = ...`
    as the first match) and the ordering facts they rely on. */
module Rows {

  datatype Option<+T> = None | Some(value: T)

  /** Every row's key is strictly greater than the key of any earlier row. */
  ghost predicate IncreasingBy<T>(s: seq<T>, key: T -> int) {
    forall i, j :: 0 <= i < j < |s| ==> key(s[i]) < key(s[j])
  }

  /** Every row's key is strictly smaller than the key of any earlier row. */
  ghost predicate DecreasingBy<T>(s: seq<T>, key: T -> int) {
    forall i, j :: 0 <= i < j < |s| ==> key(s[i]) > key(s[j])
  }

  /** Keys increase from each row to the next: `IncreasingBy` stated one
      step at a time, so that it unfolds only as far as a proof asks. */
  ghost predicate Ascending<T>(s: seq<T>, key: T -> int) {
    |s| <= 1 || (Ascending(s[..|s| - 1], key) && key(s[|s| - 2]) < key(s[|s| - 1]))
  }

  lemma {:induction false} AscendingIsIncreasing<T>(s: seq<T>, key: T -> int)
    ensures Ascending(s, key) <==> IncreasingBy(s, key)
  {
    if |s| > 1 {
      var init := s[..|s| - 1];
      AscendingIsIncreasing(init, key);
      if Ascending(s, key) {
        forall i, j | 0 <= i < j < |s| ensures key(s[i]) < key(s[j]) {
          if j < |s| - 1 {
            assert init[i] == s[i] && init[j] == s[j];
          } else if i < |s| - 2 {
            assert init[i] == s[i] && init[|s| - 2] == s[|s| - 2];
          }
        }
      }
      if IncreasingBy(s, key) {
        forall i, j | 0 <= i < j < |init| ensures key(init[i]) < key(init[j]) {
          assert init[i] == s[i] && init[j] == s[j];
        }
      }
    }
  }

  /** The last row's key is below `bound` (the next serial value, or the
      next clock reading); with increasing keys, so is every row's. */
  ghost predicate LastBelow<T>(s: seq<T>, key: T -> int, bound: int) {
    s == [] || key(s[|s| - 1]) < bound
  }

  /** No two rows share a key (a UNIQUE column). */
  ghost predicate DistinctBy<T, K>(s: seq<T>, key: T -> K) {
    forall i, j :: 0 <= i < j < |s| ==> key(s[i]) != key(s[j])
  }

  /** The rows read back to front. */
  function Reverse<T>(s: seq<T>): (r: seq<T>)
    ensures |r| == |s|
    ensures forall i :: 0 <= i < |s| ==> r[i] == s[|s| - 1 - i]
  {
    if s == [] then [] else Reverse(s[1..]) + [s[0]]
  }

  /** The rows that satisfy `p`, in their original order. */
  function Filter<T(!new)>(s: seq<T>, p: T -> bool): (r: seq<T>)
    ensures |r| <= |s|
    ensures forall x :: x in r <==> x in s && p(x)
  {
    if s == [] then []
    else if p(s[0]) then [s[0]] + Filter(s[1..], p)
    else Filter(s[1..], p)
  }

  /** The first row that satisfies `p`, if any. */
  function First<T>(s: seq<T>, p: T -> bool): (r: Option<T>)
    ensures r.None? <==> forall i :: 0 <= i < |s| ==> !p(s[i])
    ensures r.Some? ==> exists i :: 0 <= i < |s| && s[i] == r.value && p(r.value)
                          && forall j :: 0 <= j < i ==> !p(s[j])
  {
    if s == [] then None
    else if p(s[0]) then (assert s[0] == s[0] && p(s[0]); Some(s[0]))
    else
      var r := First(s[1..], p);
      if r.Some? then
        ghost var i :| 0 <= i < |s[1..]| && s[1..][i] == r.value && p(r.value)
                       && forall j :: 0 <= j < i ==> !p(s[1..][j]);
        assert s[i + 1] == r.value && forall j :: 0 <= j < i + 1 ==> !p(s[j]);
        r
      else r
  }

  /** How many rows satisfy `p`. */
  function Count<T>(s: seq<T>, p: T -> bool): (n: nat)
    ensures n <= |s|
    ensures n == 0 <==> forall i :: 0 <= i < |s| ==> !p(s[i])
  {
    if s == [] then 0 else (if p(s[0]) then 1 else 0) + Count(s[1..], p)
  }

  /** At most the first `limit` rows (SQL LIMIT). */
  function Take<T>(s: seq<T>, limit: nat): (r: seq<T>)
    ensures |r| == if limit < |s| then limit else |s|
    ensures r <= s
  {
    if limit < |s| then s[..limit] else s
  }

  lemma {:induction false} FilterKeepsIncreasing<T(!new)>(s: seq<T>, p: T -> bool, key: T -> int)
    requires IncreasingBy(s, key)
    ensures IncreasingBy(Filter(s, p), key)
  {
    if s != [] {
      HeadIsBelowTail(s, key);
      FilterKeepsIncreasing(s[1..], p, key);
      if p(s[0]) {
        ConsIncreasing(s[0], Filter(s[1..], p), key);
      }
    }
  }

  lemma HeadIsBelowTail<T>(s: seq<T>, key: T -> int)
    requires IncreasingBy(s, key) && s != []
    ensures IncreasingBy(s[1..], key)
    ensures forall x :: x in s[1..] ==> key(s[0]) < key(x)
  {
    forall x | x in s[1..] ensures key(s[0]) < key(x) {
      var k :| 0 <= k < |s[1..]| && s[1..][k] == x;
      assert s[k + 1] == x;
    }
  }

  lemma ConsIncreasing<T>(x: T, rest: seq<T>, key: T -> int)
    requires IncreasingBy(rest, key)
    requires forall y :: y in rest ==> key(x) < key(y)
    ensures IncreasingBy([x] + rest, key)
  {
    var r := [x] + rest;
    forall i, j | 0 <= i < j < |r| ensures key(r[i]) < key(r[j]) {
      if i == 0 {
        assert r[j] == rest[j - 1] && rest[j - 1] in rest;
      } else {
        assert r[i] == rest[i - 1] && r[j] == rest[j - 1];
      }
    }
  }

  lemma {:induction false} FilterKeepsDistinct<T(!new), K>(s: seq<T>, p: T -> bool, key: T -> K)
    requires DistinctBy(s, key)
    ensures DistinctBy(Filter(s, p), key)
  {
    if s != [] {
      FilterKeepsDistinct(s[1..], p, key);
      var rest := Filter(s[1..], p);
      if p(s[0]) {
        forall x | x in rest ensures key(s[0]) != key(x) {
          var k :| 0 <= k < |s[1..]| && s[1..][k] == x;
          assert s[k + 1] == x;
        }
        var r := [s[0]] + rest;
        forall i, j | 0 <= i < j < |r| ensures key(r[i]) != key(r[j]) {
          if i == 0 {
            assert r[j] == rest[j - 1] && rest[j - 1] in rest;
          } else {
            assert r[i] == rest[i - 1] && r[j] == rest[j - 1];
          }
        }
      }
    }
  }

  lemma ReverseOfIncreasing<T>(s: seq<T>, key: T -> int)
    requires IncreasingBy(s, key)
    ensures DecreasingBy(Reverse(s), key)
  {
    var r := Reverse(s);
    forall i, j | 0 <= i < j < |r| ensures key(r[i]) > key(r[j]) {
      assert r[i] == s[|s| - 1 - i] && r[j] == s[|s| - 1 - j];
    }
  }

  /** Rows kept in increasing key order, filtered and read back to front,
      come out in strictly decreasing key order (ORDER BY key DESC). */
  function NewestFirst<T(!new)>(s: seq<T>, p: T -> bool, ghost key: T -> int): (r: seq<T>)
    requires IncreasingBy(s, key)
    ensures forall x :: x in r <==> x in s && p(x)
    ensures DecreasingBy(r, key)
  {
    var f := Filter(s, p);
    FilterKeepsIncreasing(s, p, key);
    ReverseOfIncreasing(f, key);
    var r := Reverse(f);
    assert forall x :: x in r <==> x in f by {
      forall x ensures x in r <==> x in f {
        if x in r { var i :| 0 <= i < |r| && r[i] == x; assert f[|f| - 1 - i] == x; }
        if x in f { var i :| 0 <= i < |f| && f[i] == x; assert r[|f| - 1 - i] == x; }
      }
    }
    r
  }

  /** Keys never decrease along the rows (ORDER BY key, ties in any order). */
  ghost predicate NondecreasingBy<T>(s: seq<T>, key: T -> int) {
    forall i, j :: 0 <= i < j < |s| ==> key(s[i]) <= key(s[j])
  }

  /** `x` placed into the sorted rows after every row with a smaller key. */
  function InsertBy<T(!new)>(x: T, s: seq<T>, key: T -> int): (r: seq<T>)
    requires NondecreasingBy(s, key)
    ensures NondecreasingBy(r, key)
    ensures forall y :: y in r ==> y == x || y in s
    ensures multiset(r) == multiset(s) + multiset{x}
  {
    if s == [] then [x]
    else if key(x) <= key(s[0]) then
      ConsSorted(x, s, key);
      [x] + s
    else
      var head, tail := s[0], s[1..];
      assert s == [head] + tail;
      var rest := InsertBy(x, tail, key);
      HeadIsLeast(head, x, tail, rest, key);
      ConsSorted(head, rest, key);
      assert forall y :: y in [head] + rest ==> y == x || y in s;
      [head] + rest
  }

  /** A row whose key is at most every key of sorted rows can go first. */
  lemma ConsSorted<T>(x: T, s: seq<T>, key: T -> int)
    requires NondecreasingBy(s, key)
    requires forall k :: 0 <= k < |s| ==> key(x) <= key(s[k])
    ensures NondecreasingBy([x] + s, key)
  {
    var r := [x] + s;
    forall i, j | 0 <= i < j < |r| ensures key(r[i]) <= key(r[j]) {
      assert r[j] == s[j - 1];
      if i > 0 { assert r[i] == s[i - 1]; }
    }
  }

  lemma HeadIsLeast<T(!new)>(head: T, x: T, tail: seq<T>, rest: seq<T>, key: T -> int)
    requires NondecreasingBy([head] + tail, key)
    requires key(head) < key(x)
    requires forall y :: y in rest ==> y == x || y in tail
    ensures forall k :: 0 <= k < |rest| ==> key(head) <= key(rest[k])
  {
    forall k | 0 <= k < |rest| ensures key(head) <= key(rest[k]) {
      var y := rest[k];
      assert y in rest;
      if y != x {
        var m :| 0 <= m < |tail| && tail[m] == y;
        assert ([head] + tail)[m + 1] == y && ([head] + tail)[0] == head;
      }
    }
  }

  /** The rows sorted by ascending key: a permutation in key order. */
  function SortBy<T(!new)>(s: seq<T>, key: T -> int): (r: seq<T>)
    ensures NondecreasingBy(r, key)
    ensures multiset(r) == multiset(s)
  {
    if s == [] then []
    else
      assert s == [s[0]] + s[1..];
      InsertBy(s[0], SortBy(s[1..], key), key)
  }

  /** SQL UPDATE ... SET f WHERE p: every matching row is rewritten, the
      others are left as they are. */
  function Update<T>(s: seq<T>, p: T -> bool, f: T -> T): (r: seq<T>)
    ensures |r| == |s|
    ensures forall i :: 0 <= i < |s| ==> r[i] == if p(s[i]) then f(s[i]) else s[i]
  {
    if s == [] then [] else [if p(s[0]) then f(s[0]) else s[0]] + Update(s[1..], p, f)
  }

  /** SUM(column) over the rows, 0 for no rows (COALESCE(SUM(...), 0)). */
  function SumBy<T>(s: seq<T>, f: T -> int): int {
    if s == [] then 0 else f(s[0]) + SumBy(s[1..], f)
  }

  /** An UPDATE that adds `d` to a column of every matching row adds `d`
      once per matching row to the column's sum. */
  lemma {:induction false} UpdateShiftsSum<T>(s: seq<T>, p: T -> bool, f: T -> T, g: T -> int, d: int)
    requires forall x {:trigger p(x)} :: p(x) ==> g(f(x)) == g(x) + d
    ensures SumBy(Update(s, p, f), g) == SumBy(s, g) + d * Count(s, p)
  {
    if s != [] {
      var u := Update(s, p, f);
      UpdateShiftsSum(s[1..], p, f, g, d);
      assert u[1..] == Update(s[1..], p, f);
      var k := Count(s, p);
      var c := Count(s[1..], p);
      if p(s[0]) {
        assert k == 1 + c;
        MulSucc(d, c, k);
      } else {
        assert k == c;
      }
    }
  }

  lemma MulSucc(d: int, c: int, k: int)
    requires k == 1 + c
    ensures d * k == d + d * c
  {
  }

  lemma AllBelow<T>(s: seq<T>, key: T -> int, bound: int)
    requires Ascending(s, key) && LastBelow(s, key, bound)
    ensures forall i :: 0 <= i < |s| ==> key(s[i]) < bound
  {
    AscendingIsIncreasing(s, key);
    forall i | 0 <= i < |s| ensures key(s[i]) < bound {
      if i < |s| - 1 { assert key(s[i]) < key(s[|s| - 1]); }
    }
  }

  /** A row whose key is at least the bound can be appended; the bound moves
      past it. */
  lemma AppendAscending<T>(s: seq<T>, x: T, key: T -> int, bound: int)
    requires Ascending(s, key) && LastBelow(s, key, bound) && bound <= key(x)
    ensures Ascending(s + [x], key) && LastBelow(s + [x], key, key(x) + 1)
  {
    var r := s + [x];
    assert r[..|r| - 1] == s;
    if |s| >= 1 { assert r[|r| - 2] == s[|s| - 1]; }
  }

  /** Two tables of the same length whose rows carry the same keys, position by position. */
  ghost predicate SameKeys<T>(s: seq<T>, r: seq<T>, key: T -> int) {
    |r| == |s| && forall i :: 0 <= i < |s| ==> key(r[i]) == key(s[i])
  }

  lemma UpdateKeepsKeys<T>(s: seq<T>, p: T -> bool, f: T -> T, key: T -> int)
    requires forall x {:trigger f(x)} :: key(f(x)) == key(x)
    ensures SameKeys(s, Update(s, p, f), key)
  {
    var r := Update(s, p, f);
    forall i | 0 <= i < |s| ensures key(r[i]) == key(s[i]) {
      if p(s[i]) { assert r[i] == f(s[i]); }
    }
  }

  lemma SameKeysKeepIncreasing<T>(s: seq<T>, r: seq<T>, key: T -> int)
    requires SameKeys(s, r, key) && IncreasingBy(s, key)
    ensures IncreasingBy(r, key)
  {
    forall i, j | 0 <= i < j < |r| ensures key(r[i]) < key(r[j]) {
      assert key(s[i]) < key(s[j]);
    }
  }

  /** An UPDATE that leaves the key column alone keeps the order. */
  lemma UpdateAscending<T>(s: seq<T>, p: T -> bool, f: T -> T, key: T -> int, bound: int)
    requires Ascending(s, key) && LastBelow(s, key, bound)
    requires forall x {:trigger f(x)} :: key(f(x)) == key(x)
    ensures Ascending(Update(s, p, f), key) && LastBelow(Update(s, p, f), key, bound)
  {
    var r := Update(s, p, f);
    UpdateKeepsKeys(s, p, f, key);
    AscendingIsIncreasing(s, key);
    SameKeysKeepIncreasing(s, r, key);
    AscendingIsIncreasing(r, key);
  }

  /** A DELETE keeps the order and the bound. */
  lemma FilterAscending<T(!new)>(s: seq<T>, p: T -> bool, key: T -> int, bound: int)
    requires Ascending(s, key) && LastBelow(s, key, bound)
    ensures Ascending(Filter(s, p), key) && LastBelow(Filter(s, p), key, bound)
  {
    AscendingIsIncreasing(s, key);
    AscendingIsIncreasing(Filter(s, p), key);
    FilterKeepsIncreasing(s, p, key);
    AllBelow(s, key, bound);
    var r := Filter(s, p);
    if r != [] {
      assert r[|r| - 1] in r;
    }
  }

  function OptionMap<T>(o: Option<T>, f: T -> T): Option<T> {
    if o.Some? then Some(f(o.value)) else None
  }

  /** UPDATE ... RETURNING followed by `const [row] = ...`: when the update
      keeps rows matching, the row returned is the first match before the
      update, updated. */
  lemma {:induction false} FirstOfUpdate<T>(s: seq<T>, p: T -> bool, f: T -> T)
    requires forall x {:trigger f(x)} :: p(f(x)) == p(x)
    ensures First(Update(s, p, f), p) == OptionMap(First(s, p), f)
  {
    if s != [] {
      var u := Update(s, p, f);
      assert u[1..] == Update(s[1..], p, f);
      if !p(s[0]) {
        FirstOfUpdate(s[1..], p, f);
      }
    }
  }
}

=== FILE: schema.dfy ===
/** The rows of the loyalty store. Column names follow their use in the store;
    decimal money columns are held as integer cents and timestamps as ticks of
    a monotone clock. */
module Schema {
  import opened Rows

  datatype Customer = Customer(
    id: int,
    name: string,
    email: string,          // unique column
    phone: Option<string>,
    tier: string,
    segment: string,
    visits: int,
    spendCents: int,
    lastVisit: Option<int>,
    avatar: Option<string>)

  /** An insert payload: the columns with a default may be omitted. */
  datatype NewCustomer = NewCustomer(
    name: string,
    email: string,
    phone: Option<string>,
    tier: Option<string>,
    segment: Option<string>,
    visits: Option<int>,
    spendCents: Option<int>,
    avatar: Option<string>)

  /** A partial update: `None` leaves the column as it is; the nullable
      columns take `Some(None)` to be set to null. */
  datatype CustomerPatch = CustomerPatch(
    name: Option<string>,
    email: Option<string>,
    phone: Option<Option<string>>,
    tier: Option<string>,
    segment: Option<string>,
    visits: Option<int>,
    spendCents: Option<int>,
    avatar: Option<Option<string>>)
  {
    /** Sets no column: an UPDATE with an empty SET, which the store refuses. */
    predicate SetsNothing() {
      && name.None? && email.None? && phone.None? && tier.None? && segment.None?
      && visits.None? && spendCents.None? && avatar.None?
    }
  }

  const DefaultTier := "Silver"
  const DefaultSegment := "Occasional"

  datatype Activity = Activity(
    id: int,
    customerId: int,
    kind: string,           // 'visit', 'reward', 'signup', ...
    amountCents: int,
    rewardUsed: Option<string>,
    createdAt: int)

  datatype NewActivity = NewActivity(
    customerId: int,
    kind: string,
    amountCents: Option<int>,   // omitted: the column default 0
    rewardUsed: Option<string>)

  datatype Tier = Tier(
    id: int,
    name: string,
    requirement: string,
    thresholdCents: int,
    benefits: seq<string>)

  datatype NewTier = NewTier(name: string, requirement: string, thresholdCents: int, benefits: seq<string>)

  datatype TierPatch = TierPatch(
    name: Option<string>,
    requirement: Option<string>,
    thresholdCents: Option<int>,
    benefits: Option<seq<string>>)
  {
    /** Sets no column: an UPDATE with an empty SET, which the store refuses. */
    predicate SetsNothing() {
      name.None? && requirement.None? && thresholdCents.None? && benefits.None?
    }
  }

  datatype RestaurantTable = RestaurantTable(
    id: int,
    name: string,
    capacity: int,
    location: Option<string>,
    notes: Option<string>,
    status: string,         // 'available', 'occupied', 'reserved'
    currentCustomerId: Option<int>)

  datatype NewTable = NewTable(
    name: string,
    capacity: int,
    location: Option<string>,
    notes: Option<string>,
    status: string,
    currentCustomerId: Option<int>)

  datatype TablePatch = TablePatch(
    name: Option<string>,
    capacity: Option<int>,
    location: Option<Option<string>>,
    notes: Option<Option<string>>,
    status: Option<string>,
    currentCustomerId: Option<Option<int>>)
  {
    /** Sets no column: an UPDATE with an empty SET, which the store refuses. */
    predicate SetsNothing() {
      && name.None? && capacity.None? && location.None? && notes.None?
      && status.None? && currentCustomerId.None?
    }
  }

  datatype TableSession = TableSession(
    id: int,
    tableId: int,
    customerId: Option<int>,
    partySize: int,
    status: string,         // 'seated', 'cleared'
    startedAt: int,
    endedAt: Option<int>)

  /** An insert payload. `customerId` is `None` when the body omits it,
      `Some(None)` when it is null: the row stores null either way, but only
      a given value (null included) is written to the table it seats. */
  datatype NewSession = NewSession(tableId: int, customerId: Option<Option<int>>, partySize: int, status: string)

  /** The columns of a session update that the model follows; `id` and
      `startedAt` are not among them. */
  datatype SessionPatch = SessionPatch(
    tableId: Option<int>,
    customerId: Option<Option<int>>,
    partySize: Option<int>,
    status: Option<string>,
    endedAt: Option<Option<int>>)
  {
    /** Sets no column: an UPDATE with an empty SET, which the store refuses. */
    predicate SetsNothing() {
      tableId.None? && customerId.None? && partySize.None? && status.None? && endedAt.None?
    }
  }

  datatype Feedback = Feedback(
    id: int,
    customerId: Option<int>,
    rating: int,
    channel: string,
    comment: Option<string>,
    createdAt: int)

  datatype NewFeedback = NewFeedback(customerId: Option<int>, rating: int, channel: string, comment: Option<string>)

  datatype Wallet = Wallet(
    id: int,
    customerId: int,
    balancePuntos: int,
    status: string,         // 'active', 'inactive'
    updatedAt: int)

  datatype NewWallet = NewWallet(customerId: int, balancePuntos: int, status: string)

  datatype WalletTransaction = WalletTransaction(
    id: int,
    walletId: int,
    kind: string,           // 'credit'; anything else is treated as a debit
    amount: int,
    description: Option<string>,
    createdAt: int)

  datatype NewWalletTransaction = NewWalletTransaction(
    walletId: int,
    kind: string,
    amount: int,
    description: Option<string>)

  const Credit := "credit"

  // Keys the store orders rows by.
  function CustomerId(c: Customer): int { c.id }
  function CustomerEmail(c: Customer): string { c.email }
  function WalletId(w: Wallet): int { w.id }
  function ActivityCreatedAt(a: Activity): int { a.createdAt }
  function SessionStartedAt(s: TableSession): int { s.startedAt }
  function FeedbackCreatedAt(f: Feedback): int { f.createdAt }
  function TransactionCreatedAt(t: WalletTransaction): int { t.createdAt }
  function Visits(c: Customer): int { c.visits }
  function Spend(c: Customer): int { c.spendCents }

  function OrElse<T>(o: Option<T>, default: T): T {
    if o.Some? then o.value else default
  }
}

=== FILE: stats.dfy ===
/** The store's aggregate queries: the feedback statistics (counts grouped by
    channel and by rating, the share of good ratings) and the dashboard
    totals, as functions of the table contents. */
module Stats {
  import opened Rows
  import opened Schema

  /** One row of a `SELECT key, COUNT(*) ... GROUP BY key`. */
  datatype Bucket<K> = Bucket(key: K, count: nat)

  function WithKey<T, K(==)>(key: T -> K, k: K): T -> bool { (x: T) => key(x) == k }

  /** The count a grouped result gives for key `k` (0 when no group has it). */
  function CountOf<K(==)>(bs: seq<Bucket<K>>, k: K): nat {
    if bs == [] then 0 else if bs[0].key == k then bs[0].count else CountOf(bs[1..], k)
  }

  /** Sum of the counts of a grouped result. */
  function Total<K>(bs: seq<Bucket<K>>): int {
    if bs == [] then 0 else bs[0].count + Total(bs[1..])
  }

  /** No two groups share a key. */
  ghost predicate DistinctKeys<K>(bs: seq<Bucket<K>>) {
    forall i, j :: 0 <= i < j < |bs| ==> bs[i].key != bs[j].key
  }

  /** What GROUP BY promises about `bs` for the rows `s`: one group per key
      that occurs, none for a key that does not, each counting its rows. */
  ghost predicate Groups<T, K(!new)>(bs: seq<Bucket<K>>, s: seq<T>, key: T -> K) {
    && DistinctKeys(bs)
    && (forall i :: 0 <= i < |bs| ==> bs[i].count > 0)
    && (forall k :: CountOf(bs, k) == Count(s, WithKey(key, k)))
  }

  /** Counts one more row with key `k`: its group's count goes up, or a new
      group of one is added at the end. */
  function Bump<K(==, !new)>(bs: seq<Bucket<K>>, k: K): (r: seq<Bucket<K>>)
    requires DistinctKeys(bs)
    ensures DistinctKeys(r)
    ensures forall i :: 0 <= i < |r| ==> r[i].key == k || r[i] in bs
    ensures (forall i :: 0 <= i < |bs| ==> bs[i].count > 0) ==> forall i :: 0 <= i < |r| ==> r[i].count > 0
    ensures CountOf(r, k) == CountOf(bs, k) + 1
    ensures forall k' :: k' != k ==> CountOf(r, k') == CountOf(bs, k')
    ensures Total(r) == Total(bs) + 1
  {
    if bs == [] then [Bucket(k, 1)]
    else if bs[0].key == k then [bs[0].(count := bs[0].count + 1)] + bs[1..]
    else
      var rest := Bump(bs[1..], k);
      ConsGroup(bs, k, rest);
      assert DistinctKeys([bs[0]] + rest) by {
        var r := [bs[0]] + rest;
        forall i, j | 0 <= i < j < |r| ensures r[i].key != r[j].key {
          assert r[j] == rest[j - 1];
          if i > 0 { assert r[i] == rest[i - 1]; }
        }
      }
      [bs[0]] + rest
  }

  /** The groups after the first, re-counted with one more row of a key other
      than the first group's, can follow the first group again. */
  lemma ConsGroup<K>(bs: seq<Bucket<K>>, k: K, rest: seq<Bucket<K>>)
    requires bs != [] && bs[0].key != k
    requires DistinctKeys(bs)
    requires forall i :: 0 <= i < |rest| ==> rest[i].key == k || rest[i] in bs[1..]
    ensures forall i :: 0 <= i < |rest| ==> rest[i].key != bs[0].key
    ensures forall i :: 0 <= i < |[bs[0]] + rest| ==> ([bs[0]] + rest)[i].key == k || ([bs[0]] + rest)[i] in bs
  {
    forall i | 0 <= i < |rest| ensures rest[i].key != bs[0].key {
      if rest[i].key != k {
        var m :| 0 <= m < |bs[1..]| && bs[1..][m] == rest[i];
        assert bs[m + 1] == rest[i];
      }
    }
    var r := [bs[0]] + rest;
    forall i | 0 <= i < |r| ensures r[i].key == k || r[i] in bs {
      if i > 0 && r[i].key != k {
        assert r[i] == rest[i - 1] && rest[i - 1] in bs[1..];
      }
    }
  }

  /** `SELECT key, COUNT(*) FROM s GROUP BY key`, groups in no particular
      order. */
  function Tally<T, K(==, !new)>(s: seq<T>, key: T -> K): (r: seq<Bucket<K>>)
    ensures Groups(r, s, key)
    ensures Total(r) == |s|
  {
    if s == [] then []
    else
      var rest := Tally(s[1..], key);
      var r := Bump(rest, key(s[0]));
      assert forall k :: CountOf(r, k) == Count(s, WithKey(key, k)) by {
        forall k ensures CountOf(r, k) == Count(s, WithKey(key, k)) {
          assert Count(s, WithKey(key, k)) == (if key(s[0]) == k then 1 else 0) + Count(s[1..], WithKey(key, k));
        }
      }
      r
  }

  /** In a grouped result every group's count is the number of rows with its
      key. */
  lemma GroupCount<T, K(!new)>(bs: seq<Bucket<K>>, s: seq<T>, key: T -> K, i: int)
    requires Groups(bs, s, key)
    requires 0 <= i < |bs|
    ensures bs[i].count == Count(s, WithKey(key, bs[i].key))
  {
    CountOfDistinct(bs, i);
  }

  lemma {:induction false} CountOfDistinct<K>(bs: seq<Bucket<K>>, i: int)
    requires DistinctKeys(bs)
    requires 0 <= i < |bs|
    ensures CountOf(bs, bs[i].key) == bs[i].count
  {
    if i > 0 {
      assert bs[0].key != bs[i].key;
      assert bs[1..][i - 1] == bs[i];
      CountOfDistinct(bs[1..], i - 1);
    }
  }

  /** Counts one more row with key `k` in groups kept in ascending key order
      (the counts it keeps are stated by `BumpSortedCounts`). */
  function BumpSorted(bs: seq<Bucket<int>>, k: int): (r: seq<Bucket<int>>)
    requires IncreasingBy(bs, BucketKey)
    ensures IncreasingBy(r, BucketKey)
    ensures forall i :: 0 <= i < |r| ==> r[i].key == k || r[i] in bs
  {
    if bs == [] then [Bucket(k, 1)]
    else if bs[0].key == k then
      BumpFirst(bs);
      [bs[0].(count := bs[0].count + 1)] + bs[1..]
    else if k < bs[0].key then
      NewFirst(bs, k);
      [Bucket(k, 1)] + bs
    else
      var rest := BumpSorted(bs[1..], k);
      ConsSortedGroup(bs, k, rest);
      [bs[0]] + rest
  }

  lemma {:induction false} BumpSortedCounts(bs: seq<Bucket<int>>, k: int)
    requires IncreasingBy(bs, BucketKey)
    ensures (forall i :: 0 <= i < |bs| ==> bs[i].count > 0) ==> forall i :: 0 <= i < |BumpSorted(bs, k)| ==> BumpSorted(bs, k)[i].count > 0
    ensures CountOf(BumpSorted(bs, k), k) == CountOf(bs, k) + 1
    ensures forall k' :: k' != k ==> CountOf(BumpSorted(bs, k), k') == CountOf(bs, k')
    ensures Total(BumpSorted(bs, k)) == Total(bs) + 1
  {
    if bs != [] && bs[0].key != k {
      if k < bs[0].key {
        NewFirst(bs, k);
      } else {
        assert IncreasingBy(bs[1..], BucketKey) by {
          forall i, j | 0 <= i < j < |bs[1..]| ensures BucketKey(bs[1..][i]) < BucketKey(bs[1..][j]) {
            assert bs[1..][i] == bs[i + 1] && bs[1..][j] == bs[j + 1];
          }
        }
        BumpSortedCounts(bs[1..], k);
        var r := BumpSorted(bs, k);
        assert r == [bs[0]] + BumpSorted(bs[1..], k);
        assert r[1..] == BumpSorted(bs[1..], k);
      }
    }
  }

  lemma ConsSortedGroup(bs: seq<Bucket<int>>, k: int, rest: seq<Bucket<int>>)
    requires bs != [] && bs[0].key < k
    requires IncreasingBy(bs, BucketKey) && IncreasingBy(rest, BucketKey)
    requires forall i :: 0 <= i < |rest| ==> rest[i].key == k || rest[i] in bs[1..]
    ensures IncreasingBy([bs[0]] + rest, BucketKey)
    ensures forall i :: 0 <= i < |[bs[0]] + rest| ==> ([bs[0]] + rest)[i].key == k || ([bs[0]] + rest)[i] in bs
  {
    forall i | 0 <= i < |rest| ensures bs[0].key < rest[i].key {
      if rest[i].key != k {
        var m :| 0 <= m < |bs[1..]| && bs[1..][m] == rest[i];
        assert bs[m + 1] == rest[i] && BucketKey(bs[0]) < BucketKey(bs[m + 1]);
      }
    }
    var r := [bs[0]] + rest;
    forall i, j | 0 <= i < j < |r| ensures BucketKey(r[i]) < BucketKey(r[j]) {
      assert r[j] == rest[j - 1];
      if i > 0 { assert r[i] == rest[i - 1]; }
    }
    forall i | 0 <= i < |r| ensures r[i].key == k || r[i] in bs {
      if i > 0 && r[i].key != k {
        assert r[i] == rest[i - 1] && rest[i - 1] in bs[1..];
      }
    }
  }

  function BucketKey(b: Bucket<int>): int { b.key }

  lemma BumpFirst(bs: seq<Bucket<int>>)
    requires bs != [] && IncreasingBy(bs, BucketKey)
    ensures IncreasingBy([bs[0].(count := bs[0].count + 1)] + bs[1..], BucketKey)
    ensures forall i :: 1 <= i < |bs| ==> ([bs[0].(count := bs[0].count + 1)] + bs[1..])[i] == bs[i]
  {
    var r := [bs[0].(count := bs[0].count + 1)] + bs[1..];
    assert forall i :: 1 <= i < |r| ==> r[i] == bs[i];
    forall i, j | 0 <= i < j < |r| ensures BucketKey(r[i]) < BucketKey(r[j]) {
      assert BucketKey(r[i]) == BucketKey(bs[i]) && BucketKey(r[j]) == BucketKey(bs[j]);
    }
  }

  lemma NewFirst(bs: seq<Bucket<int>>, k: int)
    requires bs != [] && IncreasingBy(bs, BucketKey) && k < bs[0].key
    ensures IncreasingBy([Bucket(k, 1)] + bs, BucketKey)
    ensures forall i :: 1 <= i < |bs| + 1 ==> ([Bucket(k, 1)] + bs)[i] == bs[i - 1]
    ensures CountOf(bs, k) == 0
  {
    var r := [Bucket(k, 1)] + bs;
    assert forall i :: 1 <= i < |r| ==> r[i] == bs[i - 1];
    forall i, j | 0 <= i < j < |r| ensures BucketKey(r[i]) < BucketKey(r[j]) {
      assert BucketKey(bs[0]) <= BucketKey(bs[j - 1]);
    }
    AbsentBelow(bs, k);
  }

  /** A key below the first of ascending groups has no group. */
  lemma {:induction false} AbsentBelow(bs: seq<Bucket<int>>, k: int)
    requires IncreasingBy(bs, BucketKey)
    requires bs != [] && k < bs[0].key
    ensures CountOf(bs, k) == 0
  {
    if |bs| > 1 {
      assert BucketKey(bs[0]) < BucketKey(bs[1]);
      assert IncreasingBy(bs[1..], BucketKey) by {
        forall i, j | 0 <= i < j < |bs[1..]| ensures BucketKey(bs[1..][i]) < BucketKey(bs[1..][j]) {
          assert bs[1..][i] == bs[i + 1] && bs[1..][j] == bs[j + 1];
        }
      }
      AbsentBelow(bs[1..], k);
    }
  }

  /** `SELECT key, COUNT(*) FROM s GROUP BY key ORDER BY key` for an integer
      key. */
  function TallySorted<T>(s: seq<T>, key: T -> int): (r: seq<Bucket<int>>)
    ensures Groups(r, s, key)
    ensures IncreasingBy(r, BucketKey)
    ensures Total(r) == |s|
  {
    if s == [] then []
    else
      var rest := TallySorted(s[1..], key);
      var r := BumpSorted(rest, key(s[0]));
      BumpSortedCounts(rest, key(s[0]));
      assert forall k :: CountOf(r, k) == Count(s, WithKey(key, k)) by {
        forall k ensures CountOf(r, k) == Count(s, WithKey(key, k)) {
          assert Count(s, WithKey(key, k)) == (if key(s[0]) == k then 1 else 0) + Count(s[1..], WithKey(key, k));
        }
      }
      r
  }

  /** `Math.round((positive / total) * 100)` for `total > 0`, else 0: the
      percentage rounded to the nearest integer. The source divides and
      multiplies in floating point, so at an exact half (23 of 40 is 57.5)
      the product can fall just below it and round down; the contract
      therefore admits either neighbour of a half, and this definition picks
      the upper one. */
  function PositivePercent(positive: nat, total: nat): (r: int)
    requires positive <= total
    ensures 0 <= r <= 100
    ensures total == 0 ==> r == 0
    ensures total > 0 ==> 2 * total * r - total <= 200 * positive <= 2 * total * r + total
  {
    if total == 0 then 0
    else
      var r := (200 * positive + total) / (2 * total);
      DivBounds(200 * positive + total, 2 * total, r);
      AtMostHundred(positive, total, r);
      r
  }

  lemma AtMostHundred(positive: int, total: int, r: int)
    requires 0 <= positive <= total && total > 0
    requires 2 * total * r <= 200 * positive + total
    ensures r <= 100
  {
    if r > 100 {
      MulMono(2 * total, 101, r);
    }
  }

  lemma MulMono(a: int, b: int, c: int)
    requires a > 0 && b <= c
    ensures a * b <= a * c
  {
  }

  lemma DivBounds(n: int, d: int, q: int)
    requires n >= 0 && d > 0 && q == n / d
    ensures d * q <= n < d * q + d
  {
  }

  function Channel(f: Feedback): string { f.channel }
  function Rating(f: Feedback): int { f.rating }
  function IsPositive(): Feedback -> bool { (f: Feedback) => f.rating >= 4 }

  datatype FeedbackStats = FeedbackStats(
    totalReviews: nat,
    positivePercent: int,
    byChannel: seq<Bucket<string>>,
    byRating: seq<Bucket<int>>)

  /** getFeedbackStats, less the average rating. */
  function GetFeedbackStats(fs: seq<Feedback>): (r: FeedbackStats)
    ensures r.totalReviews == |fs|
    ensures 0 <= r.positivePercent <= 100
    ensures fs == [] ==> r.positivePercent == 0
    ensures fs != [] ==> 2 * |fs| * r.positivePercent - |fs| <= 200 * Count(fs, IsPositive()) <= 2 * |fs| * r.positivePercent + |fs|
    ensures Groups(r.byChannel, fs, Channel) && Total(r.byChannel) == |fs|
    ensures Groups(r.byRating, fs, Rating) && Total(r.byRating) == |fs|
    ensures forall i, j :: 0 <= i < j < |r.byRating| ==> r.byRating[i].key < r.byRating[j].key
  {
    var byRating := TallySorted(fs, Rating);
    assert IncreasingBy(byRating, BucketKey);
    FeedbackStats(|fs|, PositivePercent(Count(fs, IsPositive()), |fs|), Tally(fs, Channel), byRating)
  }

  function IsReward(): Activity -> bool { (a: Activity) => a.kind == "reward" }

  datatype DashboardStats = DashboardStats(
    totalRevenueCents: int,
    activeMembers: nat,
    loyaltyVisits: int,
    rewardsRedeemed: nat)

  /** getDashboardStats: the customers' total spend, their number, their
      total visits, and the number of 'reward' activities. */
  function GetDashboardStats(cs: seq<Customer>, acts: seq<Activity>): (r: DashboardStats)
    ensures r.totalRevenueCents == SumBy(cs, Spend)
    ensures r.activeMembers == |cs|
    ensures r.loyaltyVisits == SumBy(cs, Visits)
    ensures r.rewardsRedeemed == Count(acts, IsReward())
    ensures r.rewardsRedeemed <= |acts|
    ensures (forall c :: c in cs ==> c.visits >= 0) ==> r.loyaltyVisits >= 0
  {
    NonNegativeSum(cs, Visits);
    DashboardStats(SumBy(cs, Spend), |cs|, SumBy(cs, Visits), Count(acts, IsReward()))
  }

  lemma {:induction false} NonNegativeSum<T>(s: seq<T>, f: T -> int)
    ensures (forall x :: x in s ==> f(x) >= 0) ==> SumBy(s, f) >= 0
  {
    if s != [] {
      NonNegativeSum(s[1..], f);
      if forall x :: x in s ==> f(x) >= 0 {
        assert s[0] in s;
        assert forall x :: x in s[1..] ==> x in s;
      }
    }
  }
}

=== FILE: storage.dfy ===
/** The loyalty store (server/storage.ts): a `DatabaseStorage` object holding
    one sequence of rows per table, in insertion order, with the serial
    counter of each table and a clock. Every insert, update and delete is a
    method that changes those sequences the way its SQL statement does; the
    reads are the functions of the Queries and Stats modules. */
module Storage {
  import opened Rows
  import opened Schema
  import opened Avatar
  import opened Queries
  import Ledger

  /** The outcome of a statement the database can refuse, so that the store
      throws: an INSERT or UPDATE that breaks a UNIQUE constraint, or an
      UPDATE whose patch sets no column (drizzle refuses an empty SET). */
  datatype Stored<T> = Stored(value: T) | Rejected

  datatype BalanceOp = Add | Subtract

  // ---- Row builders and patches -------------------------------------------------

  /** The row `createCustomer` inserts: defaults for omitted columns, no last
      visit, and an avatar computed from the name that replaces any avatar
      in the payload. */
  function NewCustomerRow(id: int, c: NewCustomer): Customer {
    Customer(id, c.name, c.email, c.phone, OrElse(c.tier, DefaultTier), OrElse(c.segment, DefaultSegment),
             OrElse(c.visits, 0), OrElse(c.spendCents, 0), None, Some(AvatarOf(c.name)))
  }

  /** `SET` of the columns the patch carries; the avatar is not recomputed. */
  function PatchCustomer(c: Customer, p: CustomerPatch): Customer {
    c.(name := OrElse(p.name, c.name), email := OrElse(p.email, c.email), phone := OrElse(p.phone, c.phone),
       tier := OrElse(p.tier, c.tier), segment := OrElse(p.segment, c.segment),
       visits := OrElse(p.visits, c.visits), spendCents := OrElse(p.spendCents, c.spendCents),
       avatar := OrElse(p.avatar, c.avatar))
  }

  function ApplyCustomerPatch(p: CustomerPatch): Customer -> Customer {
    (c: Customer) => PatchCustomer(c, p)
  }

  /** `visits + 1`, `spend + amount`, `lastVisit = now`. */
  function RecordVisit(amountCents: int, now: int): Customer -> Customer {
    (c: Customer) => c.(visits := c.visits + 1, spendCents := c.spendCents + amountCents, lastVisit := Some(now))
  }

  function NotCustomerId(id: int): Customer -> bool { (c: Customer) => c.id != id }
  function HasEmail(e: string): Customer -> bool { (c: Customer) => c.email == e }
  function HasEmailElsewhere(e: string, id: int): Customer -> bool { (c: Customer) => c.email == e && c.id != id }

  /** Postgres rejects the UPDATE when the row exists and the patch gives it
      an email another customer already holds. */
  ghost predicate EmailConflict(cs: seq<Customer>, id: int, p: CustomerPatch) {
    && (exists i :: 0 <= i < |cs| && cs[i].id == id)
    && p.email.Some?
    && (exists j :: 0 <= j < |cs| && cs[j].id != id && cs[j].email == p.email.value)
  }

  function PatchTier(t: Tier, p: TierPatch): Tier {
    t.(name := OrElse(p.name, t.name), requirement := OrElse(p.requirement, t.requirement),
       thresholdCents := OrElse(p.thresholdCents, t.thresholdCents), benefits := OrElse(p.benefits, t.benefits))
  }

  function ApplyTierPatch(p: TierPatch): Tier -> Tier { (t: Tier) => PatchTier(t, p) }
  function HasTierId(id: int): Tier -> bool { (t: Tier) => t.id == id }

  function PatchTable(t: RestaurantTable, p: TablePatch): RestaurantTable {
    t.(name := OrElse(p.name, t.name), capacity := OrElse(p.capacity, t.capacity),
       location := OrElse(p.location, t.location), notes := OrElse(p.notes, t.notes),
       status := OrElse(p.status, t.status), currentCustomerId := OrElse(p.currentCustomerId, t.currentCustomerId))
  }

  function ApplyTablePatch(p: TablePatch): RestaurantTable -> RestaurantTable {
    (t: RestaurantTable) => PatchTable(t, p)
  }

  function NotTableId(id: int): RestaurantTable -> bool { (t: RestaurantTable) => t.id != id }

  /** Seating: the table becomes occupied; its customer becomes the one the
      session names when the payload gives one (null included), and stays as
      it was when the payload omits it, since an undefined value is not set. */
  function Seat(customerId: Option<Option<int>>): RestaurantTable -> RestaurantTable {
    (t: RestaurantTable) => t.(status := "occupied", currentCustomerId := OrElse(customerId, t.currentCustomerId))
  }

  /** Clearing: the table becomes available with no customer. */
  function Free(): RestaurantTable -> RestaurantTable {
    (t: RestaurantTable) => t.(status := "available", currentCustomerId := None)
  }

  function PatchSession(s: TableSession, p: SessionPatch): TableSession {
    s.(tableId := OrElse(p.tableId, s.tableId), customerId := OrElse(p.customerId, s.customerId),
       partySize := OrElse(p.partySize, s.partySize), status := OrElse(p.status, s.status),
       endedAt := OrElse(p.endedAt, s.endedAt))
  }

  function ApplySessionPatch(p: SessionPatch): TableSession -> TableSession {
    (s: TableSession) => PatchSession(s, p)
  }

  function HasSessionId(id: int): TableSession -> bool { (s: TableSession) => s.id == id }

  /** `balancePuntos + amount` or `balancePuntos - amount`, and `updatedAt = now`. */
  function Adjust(delta: int, now: int): Wallet -> Wallet {
    (w: Wallet) => w.(balancePuntos := w.balancePuntos + delta, updatedAt := now)
  }

  function Signed(amount: int, op: BalanceOp): int {
    if op == Add then amount else -amount
  }

  /** createWalletTransaction's choice: 'add' for a credit, 'subtract' for
      every other type. */
  function OpFor(kind: string): BalanceOp {
    if kind == Credit then Add else Subtract
  }

  class DatabaseStorage {
    var customers: seq<Customer>
    var nextCustomerId: int
    var activities: seq<Activity>
    var nextActivityId: int
    var tiers: seq<Tier>
    var nextTierId: int
    var tables: seq<RestaurantTable>
    var nextTableId: int
    var sessions: seq<TableSession>
    var nextSessionId: int
    var feedback: seq<Feedback>
    var nextFeedbackId: int
    var wallets: seq<Wallet>
    var nextWalletId: int
    var transactions: seq<WalletTransaction>
    var nextTransactionId: int
    /** `now()`: advances before every statement that stamps a row. */
    var clock: int
    /** The balance each wallet was created with. */
    ghost var seeded: map<int, int>
    /** How many transaction rows existed when each wallet was created. */
    ghost var openedAt: map<int, nat>

    /** Ids and creation stamps increase along the tables the store reads in
        order and stay below the next serial value and the next clock
        reading; customer emails are unique. */
    ghost predicate Valid()
      reads this
    {
      && CustomersOk(customers, nextCustomerId)
      && Stamped(activities, ActivityCreatedAt, clock)
      && Stamped(sessions, SessionStartedAt, clock)
      && Stamped(feedback, FeedbackCreatedAt, clock)
      && Serial(wallets, WalletId, nextWalletId)
      && Stamped(transactions, TransactionCreatedAt, clock)
    }

    /** Every wallet's balance is its seeded balance plus the credits minus the
        debits posted to it since it was created. */
    ghost predicate Reconciled()
      reads this
    {
      Ledger.AllReconcile(wallets, transactions, seeded, openedAt)
    }

    constructor ()
      ensures Valid() && Reconciled()
      ensures customers == [] && activities == [] && tiers == [] && tables == []
      ensures sessions == [] && feedback == [] && wallets == [] && transactions == []
    {
      customers, activities, tiers, tables := [], [], [], [];
      sessions, feedback, wallets, transactions := [], [], [], [];
      nextCustomerId, nextActivityId, nextTierId, nextTableId := 1, 1, 1, 1;
      nextSessionId, nextFeedbackId, nextWalletId, nextTransactionId := 1, 1, 1, 1;
      clock := 0;
      seeded, openedAt := map[], map[];
    }

    /** `now()`: the clock moves forward; every stamp already written stays
        behind it. */
    method Tick()
      requires Valid()
      modifies this`clock
      ensures Valid() && clock == old(clock) + 1
    {
      StampsStayBelow(activities, sessions, feedback, transactions, clock);
      clock := clock + 1;
    }

    // ---- Customers ----------------------------------------------------------------

    /** createCustomer: the serial advances even when the unique email
        constraint rejects the row. */
    method CreateCustomer(c: NewCustomer) returns (r: Stored<Customer>)
      requires Valid()
      modifies this`customers, this`nextCustomerId
      ensures Valid()
      ensures nextCustomerId == old(nextCustomerId) + 1
      ensures r.Rejected? <==> EmailInUse(old(customers), c.email)
      ensures r.Rejected? ==> customers == old(customers)
      ensures r.Stored? ==> r.value == NewCustomerRow(old(nextCustomerId), c) && customers == old(customers) + [r.value]
    {
      var id := nextCustomerId;
      var clash := First(customers, HasEmail(c.email));
      if clash.Some? {
        SerialBumpKeepsCustomersOk(customers, id);
        nextCustomerId := id + 1;
        return Rejected;
      }
      var row := NewCustomerRow(id, c);
      InsertKeepsCustomersOk(customers, row);
      customers, nextCustomerId := customers + [row], id + 1;
      return Stored(row);
    }

    /** updateCustomer: the patched row, or nothing when no row has the id;
        refused when the patch sets nothing or would duplicate an email. */
    method UpdateCustomer(id: int, p: CustomerPatch) returns (r: Stored<Option<Customer>>)
      requires Valid()
      modifies this`customers
      ensures Valid()
      ensures r.Rejected? <==> p.SetsNothing() || EmailConflict(old(customers), id, p)
      ensures r.Rejected? ==> customers == old(customers)
      ensures r.Stored? ==> customers == Update(old(customers), HasCustomerId(id), ApplyCustomerPatch(p))
      ensures r.Stored? ==> r.value == GetCustomer(customers, id)
      ensures r.Stored? ==> r.value == OptionMap(GetCustomer(old(customers), id), ApplyCustomerPatch(p))
    {
      if p.SetsNothing() {
        return Rejected;
      }
      var target := GetCustomer(customers, id);
      if target.Some? && p.email.Some? {
        var clash := First(customers, HasEmailElsewhere(p.email.value, id));
        if clash.Some? {
          return Rejected;
        }
      }
      PatchKeepsEmailsDistinct(customers, id, p);
      UpdateAscending(customers, HasCustomerId(id), ApplyCustomerPatch(p), CustomerId, nextCustomerId);
      customers := Update(customers, HasCustomerId(id), ApplyCustomerPatch(p));
      assert Valid();
      FirstOfUpdate(old(customers), HasCustomerId(id), ApplyCustomerPatch(p));
      r := Stored(GetCustomer(customers, id));
    }

    /** deleteCustomer: whether a row was removed. */
    method DeleteCustomer(id: int) returns (deleted: bool)
      requires Valid()
      modifies this`customers
      ensures Valid()
      ensures deleted <==> exists i :: 0 <= i < |old(customers)| && old(customers)[i].id == id
      ensures customers == Filter(old(customers), NotCustomerId(id))
      ensures forall c :: c in customers <==> c in old(customers) && c.id != id
    {
      deleted := First(customers, HasCustomerId(id)).Some?;
      FilterAscending(customers, NotCustomerId(id), CustomerId, nextCustomerId);
      FilterKeepsDistinct(customers, NotCustomerId(id), CustomerEmail);
      customers := Filter(customers, NotCustomerId(id));
    }

    // ---- Activities ---------------------------------------------------------------

    /** createActivity: the row, and for a visit the customer's counters. */
    method CreateActivity(a: NewActivity) returns (r: Activity)
      requires Valid()
      modifies this`activities, this`nextActivityId, this`clock, this`customers
      ensures Valid()
      ensures clock == old(clock) + 1 && nextActivityId == old(nextActivityId) + 1
      ensures r == Activity(old(nextActivityId), a.customerId, a.kind, OrElse(a.amountCents, 0), a.rewardUsed, clock)
      ensures activities == old(activities) + [r]
      ensures a.kind == "visit" ==> customers == Update(old(customers), HasCustomerId(a.customerId), RecordVisit(r.amountCents, clock))
      ensures a.kind != "visit" ==> customers == old(customers)
    {
      Tick();
      r := Activity(nextActivityId, a.customerId, a.kind, OrElse(a.amountCents, 0), a.rewardUsed, clock);
      AppendAscending(activities, r, ActivityCreatedAt, clock);
      activities, nextActivityId := activities + [r], nextActivityId + 1;
      if a.kind == "visit" {
        CountVisit(a.customerId, r.amountCents);
      }
    }

    /** The `UPDATE customers SET visits = visits + 1, ...` of a visit. */
    method CountVisit(customerId: int, amountCents: int)
      requires Valid()
      modifies this`customers
      ensures Valid()
      ensures customers == Update(old(customers), HasCustomerId(customerId), RecordVisit(amountCents, clock))
    {
      VisitKeepsCustomersOk(customers, nextCustomerId, customerId, amountCents, clock);
      customers := Update(customers, HasCustomerId(customerId), RecordVisit(amountCents, clock));
    }

    // ---- Tiers --------------------------------------------------------------------

    method CreateTier(t: NewTier) returns (r: Tier)
      requires Valid()
      modifies this`tiers, this`nextTierId
      ensures Valid()
      ensures nextTierId == old(nextTierId) + 1
      ensures r == Tier(old(nextTierId), t.name, t.requirement, t.thresholdCents, t.benefits)
      ensures tiers == old(tiers) + [r]
    {
      r := Tier(nextTierId, t.name, t.requirement, t.thresholdCents, t.benefits);
      tiers, nextTierId := tiers + [r], nextTierId + 1;
    }

    /** updateTier: the patched tier, or nothing when no row has the id;
        refused when the patch sets nothing. */
    method UpdateTier(id: int, p: TierPatch) returns (r: Stored<Option<Tier>>)
      requires Valid()
      modifies this`tiers
      ensures Valid()
      ensures r.Rejected? <==> p.SetsNothing()
      ensures r.Rejected? ==> tiers == old(tiers)
      ensures r.Stored? ==> tiers == Update(old(tiers), HasTierId(id), ApplyTierPatch(p))
      ensures r.Stored? ==> r.value == First(tiers, HasTierId(id))
      ensures r.Stored? ==> r.value == OptionMap(First(old(tiers), HasTierId(id)), ApplyTierPatch(p))
    {
      if p.SetsNothing() {
        return Rejected;
      }
      tiers := Update(tiers, HasTierId(id), ApplyTierPatch(p));
      assert Valid();
      FirstOfUpdate(old(tiers), HasTierId(id), ApplyTierPatch(p));
      r := Stored(First(tiers, HasTierId(id)));
    }

    // ---- Restaurant tables --------------------------------------------------------

    method CreateTable(t: NewTable) returns (r: RestaurantTable)
      requires Valid()
      modifies this`tables, this`nextTableId
      ensures Valid()
      ensures nextTableId == old(nextTableId) + 1
      ensures r == RestaurantTable(old(nextTableId), t.name, t.capacity, t.location, t.notes, t.status, t.currentCustomerId)
      ensures tables == old(tables) + [r]
    {
      r := RestaurantTable(nextTableId, t.name, t.capacity, t.location, t.notes, t.status, t.currentCustomerId);
      tables, nextTableId := tables + [r], nextTableId + 1;
    }

    /** updateTable: the patched table, or nothing when no row has the id;
        refused when the patch sets nothing. */
    method UpdateTable(id: int, p: TablePatch) returns (r: Stored<Option<RestaurantTable>>)
      requires Valid()
      modifies this`tables
      ensures Valid()
      ensures r.Rejected? <==> p.SetsNothing()
      ensures r.Rejected? ==> tables == old(tables)
      ensures r.Stored? ==> tables == Update(old(tables), HasTableId(id), ApplyTablePatch(p))
      ensures r.Stored? ==> r.value == GetTable(tables, id)
      ensures r.Stored? ==> r.value == OptionMap(GetTable(old(tables), id), ApplyTablePatch(p))
    {
      if p.SetsNothing() {
        return Rejected;
      }
      tables := Update(tables, HasTableId(id), ApplyTablePatch(p));
      assert Valid();
      FirstOfUpdate(old(tables), HasTableId(id), ApplyTablePatch(p));
      r := Stored(GetTable(tables, id));
    }

    method DeleteTable(id: int) returns (deleted: bool)
      requires Valid()
      modifies this`tables
      ensures Valid()
      ensures deleted <==> exists i :: 0 <= i < |old(tables)| && old(tables)[i].id == id
      ensures tables == Filter(old(tables), NotTableId(id))
      ensures forall t :: t in tables <==> t in old(tables) && t.id != id
    {
      deleted := GetTable(tables, id).Some?;
      tables := Filter(tables, NotTableId(id));
    }

    // ---- Table sessions -----------------------------------------------------------

    /** The `UPDATE restaurant_tables SET status = ...` that opening and
        clearing a session issue for the table. */
    method MarkTable(tableId: int, f: RestaurantTable -> RestaurantTable)
      requires Valid()
      modifies this`tables
      ensures Valid()
      ensures tables == Update(old(tables), HasTableId(tableId), f)
    {
      tables := Update(tables, HasTableId(tableId), f);
    }

    /** createTableSession: the session row, then its table is occupied. */
    method CreateTableSession(s: NewSession) returns (r: TableSession)
      requires Valid()
      modifies this`sessions, this`nextSessionId, this`clock, this`tables
      ensures Valid()
      ensures clock == old(clock) + 1 && nextSessionId == old(nextSessionId) + 1
      ensures r == TableSession(old(nextSessionId), s.tableId, OrElse(s.customerId, None), s.partySize, s.status, clock, None)
      ensures sessions == old(sessions) + [r]
      ensures tables == Update(old(tables), HasTableId(s.tableId), Seat(s.customerId))
    {
      Tick();
      r := TableSession(nextSessionId, s.tableId, OrElse(s.customerId, None), s.partySize, s.status, clock, None);
      AppendAscending(sessions, r, SessionStartedAt, clock);
      sessions, nextSessionId := sessions + [r], nextSessionId + 1;
      MarkTable(s.tableId, Seat(s.customerId));
    }

    /** updateTableSession: the patched session; a patch to 'cleared' frees
        the table the updated session names. Refused, with nothing changed,
        when the patch sets nothing. */
    method UpdateTableSession(id: int, p: SessionPatch) returns (r: Stored<Option<TableSession>>)
      requires Valid()
      modifies this`sessions, this`tables
      ensures Valid()
      ensures r.Rejected? <==> p.SetsNothing()
      ensures r.Rejected? ==> sessions == old(sessions) && tables == old(tables)
      ensures r.Stored? ==> sessions == Update(old(sessions), HasSessionId(id), ApplySessionPatch(p))
      ensures r.Stored? ==> r.value == First(sessions, HasSessionId(id))
      ensures r.Stored? ==> r.value == OptionMap(First(old(sessions), HasSessionId(id)), ApplySessionPatch(p))
      ensures r.Stored? && r.value.Some? && p.status == Some("cleared") ==>
                tables == Update(old(tables), HasTableId(r.value.value.tableId), Free())
      ensures !(r.Stored? && r.value.Some? && p.status == Some("cleared")) ==> tables == old(tables)
    {
      if p.SetsNothing() {
        return Rejected;
      }
      UpdateAscending(sessions, HasSessionId(id), ApplySessionPatch(p), SessionStartedAt, clock + 1);
      sessions := Update(sessions, HasSessionId(id), ApplySessionPatch(p));
      var row := First(sessions, HasSessionId(id));
      if row.Some? && p.status == Some("cleared") {
        assert Valid();
        MarkTable(row.value.tableId, Free());
      }
      FirstOfUpdate(old(sessions), HasSessionId(id), ApplySessionPatch(p));
      r := Stored(row);
    }

    // ---- Feedback -----------------------------------------------------------------

    method CreateFeedback(f: NewFeedback) returns (r: Feedback)
      requires Valid()
      modifies this`feedback, this`nextFeedbackId, this`clock
      ensures Valid()
      ensures clock == old(clock) + 1 && nextFeedbackId == old(nextFeedbackId) + 1
      ensures r == Feedback(old(nextFeedbackId), f.customerId, f.rating, f.channel, f.comment, clock)
      ensures feedback == old(feedback) + [r]
    {
      Tick();
      r := Feedback(nextFeedbackId, f.customerId, f.rating, f.channel, f.comment, clock);
      AppendAscending(feedback, r, FeedbackCreatedAt, clock);
      feedback, nextFeedbackId := feedback + [r], nextFeedbackId + 1;
    }

    // ---- Wallets and their ledger -------------------------------------------------

    /** createWallet: the balance is stored as given and no transaction row
        is written, so the ledger of a new wallet is empty. */
    method CreateWallet(w: NewWallet) returns (r: Wallet)
      requires Valid() && Reconciled()
      modifies this`wallets, this`nextWalletId, this`clock, this`seeded, this`openedAt
      ensures Valid() && Reconciled()
      ensures clock == old(clock) + 1 && nextWalletId == old(nextWalletId) + 1
      ensures r == Wallet(old(nextWalletId), w.customerId, w.balancePuntos, w.status, clock)
      ensures wallets == old(wallets) + [r]
      ensures transactions == old(transactions)
    {
      r := Wallet(nextWalletId, w.customerId, w.balancePuntos, w.status, clock + 1);
      OpeningKeepsLedger(wallets, transactions, r, seeded, openedAt);
      wallets, nextWalletId := wallets + [r], nextWalletId + 1;
      seeded, openedAt := seeded[r.id := r.balancePuntos], openedAt[r.id := |transactions|];
      Tick();
    }

    /** updateWalletBalance: moves the balance of the wallet with that id, with
        no lower bound, and stamps it; nothing when no wallet has the id. */
    method UpdateWalletBalance(id: int, amount: int, op: BalanceOp) returns (r: Option<Wallet>)
      requires Valid()
      modifies this`wallets, this`clock
      ensures Valid()
      ensures clock == old(clock) + 1
      ensures wallets == Update(old(wallets), HasWalletId(id), Adjust(Signed(amount, op), clock))
      ensures r == GetWallet(wallets, id)
      ensures r == OptionMap(GetWallet(old(wallets), id), Adjust(Signed(amount, op), clock))
    {
      Tick();
      AdjustKeepsWallets(wallets, nextWalletId, id, Signed(amount, op), clock);
      wallets := Update(wallets, HasWalletId(id), Adjust(Signed(amount, op), clock));
      r := GetWallet(wallets, id);
    }

    /** The first step of createWalletTransaction: the row alone. */
    method InsertTransaction(t: NewWalletTransaction) returns (r: WalletTransaction)
      requires Valid()
      modifies this`transactions, this`nextTransactionId, this`clock
      ensures Valid()
      ensures clock == old(clock) + 1 && nextTransactionId == old(nextTransactionId) + 1
      ensures r == WalletTransaction(old(nextTransactionId), t.walletId, t.kind, t.amount, t.description, clock)
      ensures transactions == old(transactions) + [r]
    {
      Tick();
      r := WalletTransaction(nextTransactionId, t.walletId, t.kind, t.amount, t.description, clock);
      AppendAscending(transactions, r, TransactionCreatedAt, clock);
      transactions, nextTransactionId := transactions + [r], nextTransactionId + 1;
    }

    /** createWalletTransaction: the row, then the balance update it implies;
        together (and only together) they keep every wallet reconciled. */
    method CreateWalletTransaction(t: NewWalletTransaction) returns (r: WalletTransaction)
      requires Valid() && Reconciled()
      modifies this`transactions, this`nextTransactionId, this`clock, this`wallets
      ensures Valid() && Reconciled()
      ensures clock == old(clock) + 2 && nextTransactionId == old(nextTransactionId) + 1
      ensures r == WalletTransaction(old(nextTransactionId), t.walletId, t.kind, t.amount, t.description, old(clock) + 1)
      ensures transactions == old(transactions) + [r]
      ensures wallets == Update(old(wallets), HasWalletId(t.walletId), Adjust(Ledger.Delta(r), clock))
    {
      r := InsertTransaction(t);
      var _ := UpdateWalletBalance(t.walletId, t.amount, OpFor(t.kind));
      assert Signed(t.amount, OpFor(t.kind)) == Ledger.Delta(r);
      PostingKeepsLedger(old(wallets), old(transactions), r, clock, seeded, openedAt);
    }
  }

  /** Moving the clock one tick keeps every stamp below the next reading. */
  lemma StampsStayBelow(acts: seq<Activity>, ss: seq<TableSession>, fs: seq<Feedback>, ts: seq<WalletTransaction>, c: int)
    requires Stamped(acts, ActivityCreatedAt, c) && Stamped(ss, SessionStartedAt, c)
    requires Stamped(fs, FeedbackCreatedAt, c) && Stamped(ts, TransactionCreatedAt, c)
    ensures Stamped(acts, ActivityCreatedAt, c + 1) && Stamped(ss, SessionStartedAt, c + 1)
    ensures Stamped(fs, FeedbackCreatedAt, c + 1) && Stamped(ts, TransactionCreatedAt, c + 1)
  {
  }

  /** Customer ids are serial and emails unique. */
  ghost predicate CustomersOk(cs: seq<Customer>, next: int) {
    Serial(cs, CustomerId, next) && DistinctBy(cs, CustomerEmail)
  }

  /** Ids handed out by a serial counter: increasing, below the next value. */
  ghost predicate Serial<T>(s: seq<T>, id: T -> int, next: int) {
    Ascending(s, id) && LastBelow(s, id, next)
  }

  /** Rows stamped by the clock: in stamp order, none after `clock`. */
  ghost predicate Stamped<T>(s: seq<T>, at: T -> int, clock: int) {
    Ascending(s, at) && LastBelow(s, at, clock + 1)
  }

  /** A balance change keeps the wallet ids serial, and the wallet is found
      as before, carrying the new balance and stamp. */
  lemma AdjustKeepsWallets(ws: seq<Wallet>, next: int, id: int, delta: int, now: int)
    requires Serial(ws, WalletId, next)
    ensures Serial(Update(ws, HasWalletId(id), Adjust(delta, now)), WalletId, next)
    ensures GetWallet(Update(ws, HasWalletId(id), Adjust(delta, now)), id) == OptionMap(GetWallet(ws, id), Adjust(delta, now))
  {
    UpdateAscending(ws, HasWalletId(id), Adjust(delta, now), WalletId, next);
    FirstOfUpdate(ws, HasWalletId(id), Adjust(delta, now));
  }

  /** A wallet opened with a fresh id and the current number of rows as its
      starting point is reconciled, and the wallets before it stay so. */
  lemma OpeningKeepsLedger(ws: seq<Wallet>, rows: seq<WalletTransaction>, w: Wallet,
                           seeded: map<int, int>, openedAt: map<int, nat>)
    requires Serial(ws, WalletId, w.id)
    requires Ledger.AllReconcile(ws, rows, seeded, openedAt)
    ensures Serial(ws + [w], WalletId, w.id + 1)
    ensures Ledger.AllReconcile(ws + [w], rows, seeded[w.id := w.balancePuntos], openedAt[w.id := |rows|])
  {
    AppendAscending(ws, w, WalletId, w.id);
    AllBelow(ws, WalletId, w.id);
    forall v | v in ws + [w] ensures Ledger.Reconciles(v, rows, seeded[w.id := w.balancePuntos], openedAt[w.id := |rows|]) {
      if v == w {
        NewWalletReconciles(w, rows, seeded, openedAt);
      } else {
        var k :| 0 <= k < |ws| && ws[k] == v;
        assert WalletId(ws[k]) < w.id;
        OtherWalletStillReconciles(v, rows, seeded, openedAt, w.id, w.balancePuntos);
      }
    }
  }

  lemma NewWalletReconciles(w: Wallet, rows: seq<WalletTransaction>, seeded: map<int, int>, openedAt: map<int, nat>)
    ensures Ledger.Reconciles(w, rows, seeded[w.id := w.balancePuntos], openedAt[w.id := |rows|])
  {
    assert rows[|rows|..] == [];
  }

  lemma OtherWalletStillReconciles(v: Wallet, rows: seq<WalletTransaction>, seeded: map<int, int>, openedAt: map<int, nat>,
                                   id: int, balance: int)
    requires Ledger.Reconciles(v, rows, seeded, openedAt) && v.id != id
    ensures Ledger.Reconciles(v, rows, seeded[id := balance], openedAt[id := |rows|])
  {
  }

  /** Appending a row and moving its wallet's balance by the row's delta
      keeps every wallet reconciled. */
  lemma PostingKeepsLedger(ws: seq<Wallet>, rows: seq<WalletTransaction>, t: WalletTransaction, now: int,
                           seeded: map<int, int>, openedAt: map<int, nat>)
    requires Ledger.AllReconcile(ws, rows, seeded, openedAt)
    ensures Ledger.AllReconcile(Update(ws, HasWalletId(t.walletId), Adjust(Ledger.Delta(t), now)), rows + [t], seeded, openedAt)
  {
    var u := Update(ws, HasWalletId(t.walletId), Adjust(Ledger.Delta(t), now));
    forall v | v in u ensures Ledger.Reconciles(v, rows + [t], seeded, openedAt) {
      var k :| 0 <= k < |u| && u[k] == v;
      assert ws[k] in ws;
      Ledger.PostingKeepsReconciled(ws[k], rows, t, seeded, openedAt);
    }
  }

  // ---- Properties of the statements -------------------------------------------------

  /** A visit touches neither ids nor emails. */
  lemma VisitKeepsCustomersOk(cs: seq<Customer>, next: int, customerId: int, amountCents: int, now: int)
    requires CustomersOk(cs, next)
    ensures CustomersOk(Update(cs, HasCustomerId(customerId), RecordVisit(amountCents, now)), next)
  {
    var u := Update(cs, HasCustomerId(customerId), RecordVisit(amountCents, now));
    UpdateAscending(cs, HasCustomerId(customerId), RecordVisit(amountCents, now), CustomerId, next);
    assert forall i :: 0 <= i < |cs| ==> CustomerEmail(u[i]) == CustomerEmail(cs[i]);
  }

  /** Some customer already holds the email. */
  ghost predicate EmailInUse(cs: seq<Customer>, email: string) {
    exists i :: 0 <= i < |cs| && cs[i].email == email
  }

  /** A serial value drawn and then discarded by a rejected insert. */
  lemma SerialBumpKeepsCustomersOk(cs: seq<Customer>, next: int)
    requires CustomersOk(cs, next)
    ensures CustomersOk(cs, next + 1)
  {
  }

  /** Inserting a row with the next id and an unused email. */
  lemma InsertKeepsCustomersOk(cs: seq<Customer>, c: Customer)
    requires CustomersOk(cs, c.id)
    requires First(cs, HasEmail(c.email)).None?
    ensures CustomersOk(cs + [c], c.id + 1)
    ensures !EmailInUse(cs, c.email)
  {
    AppendAscending(cs, c, CustomerId, c.id);
    AppendKeepsDistinct(cs, c, CustomerEmail);
  }

  lemma AppendKeepsDistinct(cs: seq<Customer>, c: Customer, key: Customer -> string)
    requires DistinctBy(cs, key)
    requires forall i :: 0 <= i < |cs| ==> key(cs[i]) != key(c)
    ensures DistinctBy(cs + [c], key)
  {
    var r := cs + [c];
    forall i, j | 0 <= i < j < |r| ensures key(r[i]) != key(r[j]) {
      assert r[i] == cs[i];
      if j < |cs| { assert r[j] == cs[j]; }
    }
  }

  /** A patch that raises no email conflict keeps emails unique. */
  lemma PatchKeepsEmailsDistinct(cs: seq<Customer>, id: int, p: CustomerPatch)
    requires Ascending(cs, CustomerId) && DistinctBy(cs, CustomerEmail)
    requires !EmailConflict(cs, id, p)
    ensures DistinctBy(Update(cs, HasCustomerId(id), ApplyCustomerPatch(p)), CustomerEmail)
  {
    AscendingIsIncreasing(cs, CustomerId);
    var u := Update(cs, HasCustomerId(id), ApplyCustomerPatch(p));
    forall i, j | 0 <= i < j < |u| ensures CustomerEmail(u[i]) != CustomerEmail(u[j]) {
      assert CustomerId(cs[i]) < CustomerId(cs[j]);
      PatchedEmail(cs, id, p, i, j);
      PatchedEmail(cs, id, p, j, i);
    }
  }

  /** The email row `i` ends up with differs from the one row `j` keeps or
      gets, when at most one of them is the patched row. */
  lemma PatchedEmail(cs: seq<Customer>, id: int, p: CustomerPatch, i: int, j: int)
    requires 0 <= i < |cs| && 0 <= j < |cs| && i != j
    requires DistinctBy(cs, CustomerEmail) && !EmailConflict(cs, id, p)
    requires cs[i].id == id ==> cs[j].id != id
    ensures cs[i].id == id ==> PatchCustomer(cs[i], p).email != cs[j].email
    ensures cs[i].id != id && cs[j].id != id ==> cs[i].email != cs[j].email
  {
    if i < j {
      assert CustomerEmail(cs[i]) != CustomerEmail(cs[j]);
    } else {
      assert CustomerEmail(cs[j]) != CustomerEmail(cs[i]);
    }
    if cs[i].id == id && p.email.Some? {
      assert cs[j].id != id;
    }
  }

  /** A visit touches exactly the customers with that id: one more visit,
      the amount added to the spend, the last visit set; every other customer
      is unchanged. Across the table, the visit total rises by the number of
      matching customers and the spend total by that many times the amount. */
  lemma VisitUpdatesCounters(cs: seq<Customer>, customerId: int, amountCents: int, now: int)
    ensures var u := Update(cs, HasCustomerId(customerId), RecordVisit(amountCents, now));
      && |u| == |cs|
      && (forall i :: 0 <= i < |cs| && cs[i].id == customerId ==>
            u[i] == cs[i].(visits := cs[i].visits + 1, spendCents := cs[i].spendCents + amountCents, lastVisit := Some(now)))
      && (forall i :: 0 <= i < |cs| && cs[i].id != customerId ==> u[i] == cs[i])
      && SumBy(u, Visits) == SumBy(cs, Visits) + Count(cs, HasCustomerId(customerId))
      && SumBy(u, Spend) == SumBy(cs, Spend) + amountCents * Count(cs, HasCustomerId(customerId))
  {
    UpdateShiftsSum(cs, HasCustomerId(customerId), RecordVisit(amountCents, now), Visits, 1);
    UpdateShiftsSum(cs, HasCustomerId(customerId), RecordVisit(amountCents, now), Spend, amountCents);
  }


  /** Seating a table occupies every table with that id; its customer is the
      session's when the payload gives one and the table's own when it omits
      it. Clearing afterwards leaves every table as clearing alone would, so
      the seating leaves no trace once the session is cleared. */
  lemma SeatThenClear(ts: seq<RestaurantTable>, tableId: int, customerId: Option<Option<int>>)
    ensures var seated := Update(ts, HasTableId(tableId), Seat(customerId));
      && (forall i :: 0 <= i < |ts| && ts[i].id == tableId ==>
            && seated[i].status == "occupied"
            && (customerId.Some? ==> seated[i].currentCustomerId == customerId.value)
            && (customerId.None? ==> seated[i].currentCustomerId == ts[i].currentCustomerId))
      && Update(seated, HasTableId(tableId), Free()) == Update(ts, HasTableId(tableId), Free())
  {
    var seated := Update(ts, HasTableId(tableId), Seat(customerId));
    var cleared := Update(seated, HasTableId(tableId), Free());
    var direct := Update(ts, HasTableId(tableId), Free());
    forall i | 0 <= i < |ts| ensures cleared[i] == direct[i] {
      assert seated[i].id == ts[i].id;
    }
    assert cleared == direct;
  }

  /** Clearing tables that are already available with nobody at them changes
      nothing: seating an available table and clearing it restores it. */
  lemma ClearAvailableIsNoOp(ts: seq<RestaurantTable>, tableId: int)
    requires forall t :: t in ts && t.id == tableId ==> t.status == "available" && t.currentCustomerId.None?
    ensures Update(ts, HasTableId(tableId), Free()) == ts
  {
    var cleared := Update(ts, HasTableId(tableId), Free());
    forall i | 0 <= i < |ts| ensures cleared[i] == ts[i] {
      assert ts[i] in ts;
    }
    assert cleared == ts;
  }
}

=== FILE: wallets_page.dfy ===
/** The points-wallet page (client/src/pages/Wallets.tsx): the figures it
    derives from the wallet and customer lists, the guards on its two forms
    and the requests those forms send. */
module WalletsPage {
  import opened Rows
  import opened Schema
  import Ledger
  import Queries
  import Routes
  import Storage

  const Unknown := "Desconocido"
  const Active := "active"

  // ---- Names --------------------------------------------------------------------

  /** `getCustomerName`: the name of the first listed customer with that id,
      or "Desconocido" when there is none or the name is empty. */
  function CustomerName(cs: seq<Customer>, id: int): (r: string)
    ensures r != ""
    ensures (forall c :: c in cs ==> c.id != id) ==> r == Unknown
    ensures r != Unknown ==> exists c :: c in cs && c.id == id && c.name == r
  {
    var found := First(cs, Queries.HasCustomerId(id));
    if found.Some? && found.value.name != "" then found.value.name else Unknown
  }

  /** With customer ids distinct, a listed customer with a name is shown by that name. */
  lemma ListedCustomerIsNamed(cs: seq<Customer>, c: Customer)
    requires DistinctBy(cs, CustomerId)
    requires c in cs && c.name != ""
    ensures CustomerName(cs, c.id) == c.name
  {
    var found := First(cs, Queries.HasCustomerId(c.id));
    var k :| 0 <= k < |cs| && cs[k] == c;
    assert !(forall i :: 0 <= i < |cs| ==> !Queries.HasCustomerId(c.id)(cs[i]));
    var i :| 0 <= i < |cs| && cs[i] == found.value && Queries.HasCustomerId(c.id)(found.value);
    assert CustomerId(cs[i]) == CustomerId(cs[k]);
    assert i == k;
  }

  // ---- Customers offered a wallet -----------------------------------------------

  function HasNoWallet(ws: seq<Wallet>): Customer -> bool {
    (c: Customer) => forall w :: w in ws ==> w.customerId != c.id
  }

  /** `customersWithoutWallet`: the customers no wallet belongs to, in list
      order; only these are offered in the create form. */
  function CustomersWithoutWallet(cs: seq<Customer>, ws: seq<Wallet>): (r: seq<Customer>)
    ensures forall c :: c in r <==> (c in cs && forall w :: w in ws ==> w.customerId != c.id)
  {
    Filter(cs, HasNoWallet(ws))
  }

  function WalletCustomer(w: Wallet): int { w.customerId }

  /** Opening a wallet for an offered customer keeps one wallet per customer,
      and that customer is no longer offered. */
  lemma OfferedCustomerGetsOneWallet(cs: seq<Customer>, ws: seq<Wallet>, c: Customer, w: Wallet)
    requires DistinctBy(ws, WalletCustomer)
    requires c in CustomersWithoutWallet(cs, ws) && w.customerId == c.id
    ensures DistinctBy(ws + [w], WalletCustomer)
    ensures c !in CustomersWithoutWallet(cs, ws + [w])
  {
    var r := ws + [w];
    forall i, j | 0 <= i < j < |r| ensures WalletCustomer(r[i]) != WalletCustomer(r[j]) {
      assert r[i] == ws[i] && ws[i] in ws;
      if j < |ws| { assert r[j] == ws[j]; }
    }
    assert w in r;
  }

  // ---- Figures ------------------------------------------------------------------

  function Balance(w: Wallet): int { w.balancePuntos }

  function IsActive(): Wallet -> bool { (w: Wallet) => w.status == Active }

  /** `totalPoints`: the balances added up. */
  function TotalPoints(ws: seq<Wallet>): int { SumBy(ws, Balance) }

  /** `activeWallets`: how many wallets are active. */
  function ActiveWallets(ws: seq<Wallet>): (n: nat)
    ensures n <= |ws|
    ensures n == 0 <==> forall i :: 0 <= i < |ws| ==> ws[i].status != Active
  {
    Count(ws, IsActive())
  }

  lemma {:induction false} CountOfDistinctId(ws: seq<Wallet>, id: int)
    requires DistinctBy(ws, WalletId)
    ensures Count(ws, Queries.HasWalletId(id)) == if exists w :: w in ws && w.id == id then 1 else 0
  {
    if ws != [] {
      var rest := ws[1..];
      assert DistinctBy(rest, WalletId) by {
        forall i, j | 0 <= i < j < |rest| ensures WalletId(rest[i]) != WalletId(rest[j]) {
          assert rest[i] == ws[i + 1] && rest[j] == ws[j + 1];
        }
      }
      CountOfDistinctId(rest, id);
      if ws[0].id == id {
        forall w | w in rest ensures w.id != id {
          var k :| 0 <= k < |rest| && rest[k] == w;
          assert WalletId(ws[0]) != WalletId(ws[k + 1]);
        }
      } else {
        assert (exists w :: w in ws && w.id == id) <==> (exists w :: w in rest && w.id == id) by {
          forall w | w in ws && w.id == id ensures w in rest {
            var k :| 0 <= k < |ws| && ws[k] == w;
            assert k != 0;
            assert rest[k - 1] == w;
          }
        }
      }
    }
  }

  /** A transaction posted by the server moves the page's total by exactly
      its signed amount when the wallet exists, and leaves it otherwise. */
  lemma PostingMovesTotal(ws: seq<Wallet>, t: WalletTransaction, now: int)
    requires DistinctBy(ws, WalletId)
    ensures TotalPoints(Update(ws, Queries.HasWalletId(t.walletId), Storage.Adjust(Ledger.Delta(t), now)))
            == TotalPoints(ws) + if exists w :: w in ws && w.id == t.walletId then Ledger.Delta(t) else 0
  {
    UpdateShiftsSum(ws, Queries.HasWalletId(t.walletId), Storage.Adjust(Ledger.Delta(t), now), Balance, Ledger.Delta(t));
    CountOfDistinctId(ws, t.walletId);
  }

  lemma {:induction false} AdjustKeepsActive(ws: seq<Wallet>, id: int, d: int, now: int)
    ensures ActiveWallets(Update(ws, Queries.HasWalletId(id), Storage.Adjust(d, now))) == ActiveWallets(ws)
  {
    if ws != [] {
      var u := Update(ws, Queries.HasWalletId(id), Storage.Adjust(d, now));
      assert u[1..] == Update(ws[1..], Queries.HasWalletId(id), Storage.Adjust(d, now));
      AdjustKeepsActive(ws[1..], id, d, now);
    }
  }

  // ---- Forms --------------------------------------------------------------------

  /** `parseInt(value) || 0` of a number input: what `parseInt` reads, and 0
      when it reads nothing. */
  function NumberInput(raw: string): (n: int)
    ensures Routes.ParseIntPrefix(raw).None? ==> n == 0
    ensures Routes.ParseIntPrefix(raw).Some? ==> n == Routes.ParseIntPrefix(raw).value
  {
    var parsed := Routes.ParseIntPrefix(raw);
    if parsed.None? then 0 else parsed.value
  }

  /** A positive number typed into the input is taken as itself. */
  lemma NumberInputOfDecimal(n: nat)
    requires n >= 1
    ensures NumberInput(Routes.Decimal(n)) == n
  {
    Routes.DecimalValue(n);
    Routes.ParseDigits(Routes.Decimal(n));
  }

  datatype WalletForm = WalletForm(customerId: string, balancePuntos: int, status: string)

  const BlankWalletForm := WalletForm("", 0, Active)

  /** The submit button of the create form is enabled. */
  predicate CanCreateWallet(f: WalletForm, pending: bool) {
    !pending && f.customerId != ""
  }

  /** `handleCreateWallet`: the selected customer id goes through `parseInt`;
      `None` stands for the NaN it yields on text that is not a number. */
  function WalletRequest(f: WalletForm): (r: Option<NewWallet>)
    ensures r.Some? <==> Routes.ParseIntPrefix(f.customerId).Some?
    ensures r.Some? ==> r.value.customerId == Routes.ParseIntPrefix(f.customerId).value
    ensures r.Some? ==> r.value.balancePuntos == f.balancePuntos && r.value.status == f.status
  {
    var id := Routes.ParseIntPrefix(f.customerId);
    if id.None? then None else Some(NewWallet(id.value, f.balancePuntos, f.status))
  }

  /** Choosing an offered customer (the option's value is its id in decimal)
      enables the form, and the request names that customer. */
  lemma ChosenCustomerIsRequested(c: Customer, balance: int, status: string)
    requires c.id >= 1
    ensures CanCreateWallet(WalletForm(Routes.Decimal(c.id), balance, status), false)
    ensures WalletRequest(WalletForm(Routes.Decimal(c.id), balance, status)) == Some(NewWallet(c.id, balance, status))
  {
    Routes.DecimalValue(c.id);
    Routes.ParseDigits(Routes.Decimal(c.id));
  }

  datatype TransactionForm = TransactionForm(kind: string, amount: int, description: string)

  const BlankTransactionForm := TransactionForm(Credit, 0, "")

  /** The submit button of the transaction form is enabled. */
  predicate CanPostTransaction(f: TransactionForm, pending: bool) {
    !pending && f.amount > 0
  }

  /** `handleCreateTransaction`: nothing without a selected wallet; otherwise
      the form for that wallet, an empty description sent as null. */
  function TransactionRequest(selected: Option<Wallet>, f: TransactionForm): (r: Option<NewWalletTransaction>)
    ensures r.None? <==> selected.None?
    ensures r.Some? ==> r.value.walletId == selected.value.id && r.value.kind == f.kind && r.value.amount == f.amount
    ensures r.Some? ==> (r.value.description.None? <==> f.description == "")
    ensures r.Some? && r.value.description.Some? ==> r.value.description.value == f.description
  {
    if selected.None? then None
    else Some(NewWalletTransaction(selected.value.id, f.kind, f.amount, if f.description == "" then None else Some(f.description)))
  }

  // ---- History ------------------------------------------------------------------

  /** The sign shown before a transaction's amount. */
  function SignShown(kind: string): string {
    if kind == Credit then "+" else "-"
  }

  /** The text shown for a transaction: its description, or a default by kind. */
  function TransactionLabel(t: WalletTransaction): string {
    if t.description.Some? && t.description.value != "" then t.description.value
    else if t.kind == Credit then "Puntos agregados" else "Puntos canjeados"
  }

  /** For the positive amounts the form lets through, the sign shown agrees
      with the way the server moves the balance. */
  lemma SignMatchesLedger(f: TransactionForm, w: Wallet, id: int, now: int)
    requires CanPostTransaction(f, false)
    ensures var t := WalletTransaction(id, w.id, f.kind, f.amount, TransactionRequest(Some(w), f).value.description, now);
            && (SignShown(t.kind) == "+" <==> Ledger.Delta(t) > 0)
            && (SignShown(t.kind) == "-" <==> Ledger.Delta(t) < 0)
            && Ledger.Delta(t) == if SignShown(t.kind) == "+" then f.amount else -f.amount
  {
  }

  /** A posted row shows the description typed in the form, or the default
      for its kind when the description was left empty. */
  lemma LabelOfPostedRow(f: TransactionForm, w: Wallet, id: int, now: int)
    ensures var req := TransactionRequest(Some(w), f).value;
            var t := WalletTransaction(id, req.walletId, req.kind, req.amount, req.description, now);
            TransactionLabel(t) == if f.description != "" then f.description
                                   else if f.kind == Credit then "Puntos agregados" else "Puntos canjeados"
  {
  }
}
